=== FILE: README.md ===
# Inventory backend — a verified model

This project models the core of the inventory shop backend. That core has three parts:

- **The item store.** This is an in-memory sequence of item records plus an id counter. It is seeded with three sample items and `nextId = 4`. It offers `getAll`, `getById`, `create`, `update`, `delete`, `generateSku` and `getStats`.
- **The payload validator.** It provides `isValidId`, `validateItemData` in full mode (create) and partial mode (update), and `validateSearchQuery`.
- **The inventory routes.** These are:
  - the list endpoint's response cache, a map with timestamps and a five-minute time-to-live;
  - the list filter pipeline (`q`, `category`, `minPrice`, `maxPrice`);
  - the status decisions of the `GET /:id`, `POST /`, `PUT /:id` and `DELETE /:id` handlers.

Every operation is a pure function. Mutations return the new store or server state. The clock and the random part of a generated SKU are parameters.

Modules, one per file:

- `Wrappers` (`wrappers.dfy`): `Option`.
- `Seqs` (`seqs.dfy`): filtering and order-preserving subsequences.
- `JsText` (`jstext.dfy`): the JavaScript string behaviour the backend relies on:
  - `trim` and its whitespace set;
  - `length` in UTF-16 code units;
  - ASCII `toLowerCase` and `toUpperCase`;
  - `includes`;
  - `String(n)` and `n.toString(36)`.
- `JsValue` (`jsvalue.dfy`):
  - JSON values as they arrive in a request body;
  - truthiness;
  - `parseFloat` and radix-less `parseInt`, including NaN and ±Infinity.
- `Validator` (`validator.dfy`): the validator. Each field's check is stated against an independent definition of an acceptable field (`GoodName`, `GoodPrice`, …) and of an acceptable payload (`Acceptable`). Errors are an enumeration, and `Error.Message` gives each one's text as the source writes it.
- `ItemStore` (`item.dfy`): the store, its invariant (live ids are distinct and were issued from the counter) and the preservation lemmas.
- `ItemStats` (`stats.dfy`): `getStats`. Its per-category breakdown is the corrected one listed under "## Findings", proved exact. The breakdown as the source writes it is `BreakdownAsWritten`, which agrees with the corrected one unless a category is named like an `Object.prototype` member.
- `ResponseCache` (`cache.dfy`): `getCacheKey`, `setCache`, `getCache` and `clear` over an explicit time.
- `QueryKey` (`querykey.dfy`): the list cache key `'inventory' + JSON.stringify(req.query)`. It includes a reader that recovers the query from the key, so distinct queries provably never share an entry.
- `Routes` (`routes.dfy`): the five endpoints as transitions of `Server(store, cache)`. It holds:
  - the server invariant (store invariant, and every cache entry is its own query's list over the current store);
  - runs of requests;
  - the freshness of issued ids.
- `Scenarios` (`examples.dfy`): concrete requests against the sample data.

## Model

| member | source | states |
|---|---|---|
| JsText.TrimEmptyIffBlank | backend/utils/validator.js:3 | `s.trim().length` is 0 exactly when every character of `s` is whitespace |
| JsText.Utf16Length | backend/utils/validator.js:14 | a string's JavaScript length is its number of code points plus its number of code points outside the Basic Multilingual Plane, so between the count and twice the count |
| JsText.IncludesIffOccurs | backend/routes/inventory.js:47-48 | `hay.includes(needle)` holds exactly when the needle starts at some position of the haystack |
| JsText.NatToString | backend/models/item.js:51 | `String(n)` is a non-empty run of digits with no leading zero |
| JsText.DecimalRoundTrip | backend/models/item.js:51 | reading the decimal rendering of the counter back gives the counter |
| JsText.NatToStringInjective | backend/models/item.js:51 | distinct counter values give distinct id strings |
| JsText.Base36 | backend/models/item.js:106 | `n.toString(36)` is a non-empty string of base-36 digits |
| JsValue.ParseIntOfDecimal | backend/models/item.js:56 | `parseInt` of a number's decimal rendering gives that number |
| JsValue.ParseFloatOfDecimal | backend/routes/inventory.js:59 | `parseFloat` of a number's decimal rendering gives that number |
| Validator.IsValidId | backend/utils/validator.js:2-4 | an id is valid exactly when it is a string that is not all whitespace |
| Validator.CheckName | backend/utils/validator.js:11-17 | the name check reports at most one name error, and none exactly when the name is a non-blank string of at most 100 UTF-16 units |
| Validator.CheckCategory | backend/utils/validator.js:19-23 | at most one category error, none exactly when the category is a non-blank string |
| Validator.CheckPrice | backend/utils/validator.js:25-32 | at most one price error, none exactly when `parseFloat` gives a finite number in [0, 999999] |
| Validator.CheckQuantity | backend/utils/validator.js:34-41 | at most one quantity error, none exactly when `parseInt` gives an integer in [0, 999999] |
| Validator.CheckDescription | backend/utils/validator.js:44-50 | at most one description error, none exactly when a present description is a string of at most 500 units |
| Validator.CheckSku | backend/utils/validator.js:52-60 | at most one SKU error, none exactly when a present SKU is a string of 1 to 50 characters from `[A-Za-z0-9_-]` |
| Validator.FieldErrorsEmptyIffAcceptable | backend/utils/validator.js:11-60 | no field reports an error exactly when the payload is acceptable in the given mode |
| Validator.OrderedBound | backend/utils/validator.js:11-60 | errors about strictly increasing fields below `k` number at most `k` |
| Validator.MessageInjective | backend/utils/validator.js:11-58 | the twelve error messages are pairwise distinct, so the list of errors and the array of message strings determine each other |
| Validator.ValidateItemData | backend/utils/validator.js:6-66 | `isValid` holds exactly when the error list is empty and exactly when the payload is acceptable; the errors are in field order, at most one per field, so at most six; field `k` reports an error exactly when it is not acceptable, and every error comes from its own field's check |
| Validator.ReportedFields | backend/utils/validator.js:11-60 | in the concatenated field errors, field `k` has an error exactly when its check fails, and each error belongs to its own field's errors |
| Validator.ConcatPresence | backend/utils/validator.js:11-60 | in a concatenation of tagged segments, some error is tagged `k` exactly when segment `k` is non-empty |
| Validator.NullNameAndPriceBothReported | backend/utils/validator.js:11-32 | a partial payload with `null` name and price gets exactly the name-required and price-invalid errors, in that order |
| Validator.FullModeReportsMissingFields | backend/utils/validator.js:11-41 | in full mode each missing name, category, price or quantity is reported with its own error |
| Validator.PartialModeAcceptsEmpty | backend/utils/validator.js:11-60 | in partial mode the empty payload is valid with no errors |
| Validator.PresentFieldsCheckedAlike | backend/utils/validator.js:11-41 | when all four required keys are present, partial and full mode give the same result |
| Validator.PartialErrorsSubseqOfFull | backend/utils/validator.js:11-60 | partial-mode errors are an order-preserving subsequence of the full-mode errors for the same payload |
| Validator.OnlyFieldDecides | backend/utils/validator.js:11-60 | a partial payload carrying only field `k` gets exactly that field's errors |
| Validator.NameBoundaries | backend/utils/validator.js:12-15 | blank names are rejected as required, names over 100 units as too long, all others accepted |
| Validator.PriceBoundaries | backend/utils/validator.js:26-31 | a numeric price is accepted exactly on [0, 999999], otherwise rejected as invalid (negative) or too high |
| Validator.QuantityBoundaries | backend/utils/validator.js:35-40 | an integral quantity is accepted exactly on [0, 999999], otherwise rejected as invalid or too high |
| Validator.UnparsableAmountsRejected | backend/utils/validator.js:25-41 | a price or quantity string that parses to NaN is rejected as invalid |
| Validator.SkuAcceptedIff | backend/utils/validator.js:52-60 | a SKU is accepted exactly when it is a string of length 1 to 50 over `[A-Za-z0-9_-]` |
| Validator.OnlySkuDecides | backend/utils/validator.js:52-60 | a payload with only a SKU is judged by the SKU check alone |
| Validator.EmptySkuRejected | backend/utils/validator.js:57-58 | the empty SKU fails the pattern check |
| Validator.SpacedSkuRejected | backend/utils/validator.js:57-58 | a SKU containing a space fails the pattern check |
| Validator.ValidateSearchQuery | backend/utils/validator.js:79-92 | an absent or empty query is valid with `cleaned = ""`; a non-string is invalid; a string is valid exactly when its length is at most 100, and then `cleaned` is its sanitized form |
| Validator.SearchQueryBoundaries | backend/utils/validator.js:79-92 | for a string of Basic Multilingual Plane characters, the empty query is valid with `cleaned = ""`, more than 100 characters is too long, and anything else is valid with its sanitized form |
| ItemStore.Seed | backend/models/item.js:2-38 | the sample store has three items, `nextId = 4`, and satisfies the store invariant |
| ItemStore.FindIndex | backend/models/item.js:67 | the result is the first position holding the id, or -1 exactly when no item has it |
| ItemStore.GetById | backend/models/item.js:45-47 | an item is found exactly when one has the id, and it is a stored item with that id |
| ItemStore.GeneratedSkuShape | backend/models/item.js:105-109 | a generated SKU matches `^SKU[0-9A-Z]+$` |
| ItemStore.Create | backend/models/item.js:49-64 | the new item gets id `String(nextId)`, the parsed price and quantity, description "" and a generated SKU when those are falsy, and `now` as both timestamps; it is appended and the counter moves by one |
| ItemStore.CreateKeepsInv | backend/models/item.js:49-64 | `create` keeps the invariant, and the new id was not live before |
| ItemStore.Merge | backend/models/item.js:73-88 | the updated record keeps `id` and `createdAt`, takes each field present in the payload (price and quantity re-parsed), keeps every absent field, and is stamped `now` |
| ItemStore.Update | backend/models/item.js:66-92 | an unknown id changes nothing and returns nothing; otherwise the merged record replaces the old one at the same position and every other record is untouched |
| ItemStore.UpdateKeepsInv | backend/models/item.js:66-92 | `update` keeps the store invariant |
| ItemStore.Delete | backend/models/item.js:94-103 | `delete` reports success exactly when the id is present; then the first item with it is removed and the length drops by one, otherwise nothing changes |
| ItemStore.RemoveAtIsSubseq | backend/models/item.js:101 | removing one position leaves the rest in their original order |
| ItemStore.DeleteKeepsInv | backend/models/item.js:94-103 | `delete` keeps the invariant, keeps the order of the rest, and the deleted id can no longer be found |
| ItemStats.FindCategory | backend/models/item.js:121 | the entry lookup returns a position holding the category, or -1 exactly when there is none |
| ItemStats.CountPositiveIff | backend/models/item.js:120-128 | a category's count is positive exactly when some item has it |
| ItemStats.BreakdownCorrect | backend/models/item.js:120-128 | the breakdown has one entry per occurring category holding its item count and stock value; counts sum to the item count and values to the total value |
| ItemStats.FirstOf | backend/models/item.js:119-120 | the result is the position of the first item with the category, or the length when no item has it |
| ItemStats.BreakdownOrdered | backend/models/item.js:119-125 | every breakdown entry names a category that occurs, and entries are ordered by the position where their category first occurs |
| ItemStats.LowStockCorrect | backend/models/item.js:116 | the low-stock list is an ordered subsequence of the items, holds only items with quantity below 10, and keeps each such item as often as it is stored |
| ItemStats.GetStats | backend/models/item.js:112-132 | `totalItems` is the length, the corrected breakdown is exact, sums to the totals and lists its categories in order of first occurrence, and `lowStock` is exactly the items with quantity below 10, in order and with every repeated record kept as often as it is stored |
| ItemStats.CategoryListedIff | backend/models/item.js:112-132 | in the corrected breakdown, a category appears exactly when some stored item has it |
| ItemStats.StatsAfterCreate | backend/models/item.js:112-132 | after a `create`, the statistics count one more item, add its stock value to the total and to its category, and append it to `lowStock` exactly when its quantity is below 10 |
| ItemStats.AsWrittenAgreesWithoutInheritedNames | backend/models/item.js:120-128 | when no item's category is named like an `Object.prototype` member, the breakdown as written equals the corrected one |
| ItemStats.InheritedCategoryIsDropped | backend/models/item.js:121-127 | as written, an item in category "constructor" gets no entry, so the counts sum to 0 for one item; the corrected breakdown counts it |
| ResponseCache.SetCache | backend/routes/inventory.js:12-14 | the key now holds the data stamped `now`, and every other entry is kept |
| ResponseCache.GetCache | backend/routes/inventory.js:15-22 | a read returns the stored data exactly when the entry exists and is younger than five minutes; otherwise it misses and the key is gone afterwards; no other entry changes |
| ResponseCache.Clear | backend/routes/inventory.js:136 | after `clear` no key is present |
| ResponseCache.SetThenGet | backend/routes/inventory.js:12-19 | data stored at `t` reads back unchanged while `now - t` is below the TTL |
| ResponseCache.SetThenGetExpired | backend/routes/inventory.js:15-22 | once the TTL has elapsed the same read misses and evicts the key |
| ResponseCache.SetLeavesOtherKeys | backend/routes/inventory.js:12-19 | storing under one key does not change reads of another |
| ResponseCache.ClearedMisses | backend/routes/inventory.js:136 | after `clear` every read misses |
| QueryKey.ReadEscaped | backend/routes/inventory.js:28 | a string escaped as `JSON.stringify` does, followed by a closing quote, reads back exactly |
| QueryKey.ReadMembersRoundTrip | backend/routes/inventory.js:28 | the serialized members of a query object, followed by `}`, read back as the same query |
| QueryKey.ListKeyRoundTrip | backend/routes/inventory.js:28 | the list cache key of a query reads back as that query |
| QueryKey.ListKeyInjective | backend/routes/inventory.js:28 | distinct queries (including the same filters in another order) have distinct cache keys |
| Routes.Lookup | backend/routes/inventory.js:27 | a parameter is found exactly when the query has a property with that name, and the value found is that property's |
| Routes.StageIsFilter | backend/routes/inventory.js:44-64 | a filter stage that runs only when its parameter is truthy is one filter by "inactive or passes" |
| Routes.ApplyFiltersIsOneFilter | backend/routes/inventory.js:43-64 | the four-stage pipeline is a single filter by the conjunction of the active conditions |
| Routes.ApplyFiltersExact | backend/routes/inventory.js:41-64 | the list is an order-preserving subsequence of the store, and an item is listed exactly when it is stored and passes every active filter, as many times as it is stored |
| Routes.NoFiltersListsAll | backend/routes/inventory.js:41-64 | with no truthy filter parameter the whole store is listed |
| Routes.HandleList | backend/routes/inventory.js:25-82 | a live entry for the query's key is served marked cached, with the cache untouched; otherwise the filtered store is returned with its filters and stored under the key at `now`; other entries and the store are unchanged |
| Routes.HandleGet | backend/routes/inventory.js:85-116 | 400 exactly for a blank id, 404 exactly for a valid unknown id, 200 with the stored item otherwise; nothing changes |
| Routes.HandlePost | backend/routes/inventory.js:119-150 | 201 exactly when the payload passes full validation, with the created item and an emptied cache; otherwise 400 with exactly the validator's errors and no change |
| Routes.HandlePut | backend/routes/inventory.js:153-198 | the id is checked first, then the payload (both 400), then existence (404); 200 carries the updated item and empties the cache; any other status changes nothing |
| Routes.HandleDelete | backend/routes/inventory.js:201-235 | 400 for a blank id, 404 for an unknown one, otherwise the item is deleted and the cache emptied; failures change nothing |
| Routes.ListIsCurrent | backend/routes/inventory.js:28-41 | on a coherent server a list response, cached or not, is the current store filtered by the query |
| Routes.ListKeepsCoherent | backend/routes/inventory.js:28-67 | listing keeps every cache entry equal to its own query's list over the current store |
| Routes.PostKeepsGood | backend/routes/inventory.js:133-136 | a POST keeps the store invariant and the cache coherent |
| Routes.PutKeepsGood | backend/routes/inventory.js:174-184 | a PUT keeps the store invariant and the cache coherent |
| Routes.DeleteKeepsGood | backend/routes/inventory.js:212-222 | a DELETE keeps the store invariant and the cache coherent |
| Routes.StepKeepsGood | backend/routes/inventory.js:25-235 | every request keeps the store invariant and the cache coherent |
| Routes.StepCounter | backend/models/item.js:51 | the counter moves by one exactly on a 201, whose item has the old counter as its id, and never otherwise |
| Routes.WriteThenListMisses | backend/routes/inventory.js:133-222 | after a successful create, update or delete, the next list request misses the cache and shows the updated store |
| Routes.FailuresChangeNothing | backend/routes/inventory.js:85-235 | a request answered with any status other than 200 or 201 leaves store and cache unchanged |
| Routes.RunIssuesFreshIds | backend/models/item.js:38-103 | over any run of requests the invariants hold and the created ids are canonical decimals, strictly increasing, drawn from the counter values the run passes through |
| Routes.RunIdsNeverReused | backend/models/item.js:38-103 | ids created in a run are pairwise distinct and differ from every id present when the run started |
| Scenarios.SampleMatches | backend/routes/inventory.js:52-64 | against `category=Electronics&minPrice=50` the laptop passes, the chair fails on category and the mouse on price |
| Scenarios.ElectronicsFromFifty | backend/routes/inventory.js:41-64 | `GET /?category=Electronics&minPrice=50` on the sample store lists only the laptop, freshly computed |
| Scenarios.DeskLampCreateAt | backend/models/item.js:49-64 | the Desk Lamp payload is created as item "4" with price 19.99, quantity 5, empty description and a generated SKU matching `^SKU[0-9A-Z]+$`, and the counter moves to 5 |
| Scenarios.DeskLampCreated | backend/routes/inventory.js:119-142 | posting the Desk Lamp payload to the sample store answers 201 with that item, whose SKU matches `^SKU[0-9A-Z]+$` |
| Scenarios.RestockMerge | backend/models/item.js:73-88 | a quantity-only payload changes only the quantity and the update time |
| Scenarios.ChairRestocked | backend/routes/inventory.js:153-190 | `PUT /2` with `{quantity: 3}` answers 200 with the chair changed only in quantity and update time |
| Scenarios.DeleteUnknown | backend/routes/inventory.js:201-219 | `DELETE /999` on the sample store answers 404 and changes nothing |
| Scenarios.BlankIdRejected | backend/routes/inventory.js:89-94 | a whitespace id gets 400 before the store is consulted |
| Scenarios.SecondListIsCached | backend/routes/inventory.js:28-39 | listing twice within five minutes serves the second answer from the cache with the same data |

## Left out

- HTTP and Express are not modelled: routing, `req`/`res`, JSON bodies and the `total` field, which is always the length of `data`. `backend/server.js` and the frontend are not part of this model.
- The `catch` branches answering 500 are not modelled. Every modelled operation is total, so those branches cannot be reached here.
- Time is a parameter, `now`, in milliseconds. Timestamps are stored as that number, not as ISO strings.
- The random part of a generated SKU is a parameter `suffix` of type `JsText.Base36Text`, lower-case base-36 digits, at every operation that creates an item. Its length is not fixed at three characters.
- `sanitizeString` is a function parameter of `ValidateSearchQuery`. Its regular-expression rewriting is not modelled.
- `toLowerCase` and `toUpperCase` map only the ASCII letters. Unicode case mapping is not modelled.
- Prices and stock values are exact reals. Rounding to the nearest double, in parsing and in `price * quantity`, is not modelled.
- JsValue.ParseIntValue: a JSON number is truncated toward zero. `parseInt(String(x))` differs for numbers JavaScript prints with an exponent (such as `1e21` or `5e-7`).
- JsValue.ParseFloatValue: objects and arrays are one `Obj` value that parses to NaN. An array such as `[5]`, whose string form is `"5"`, would parse to 5 in JavaScript.
- ItemStore.Create: `nextId` is an unbounded integer. In JavaScript it is a double, so above 2^53 `nextId++` stops advancing and ids would repeat. This takes about 9·10^15 creates.
- JsText.NatToString: gives plain decimal digits for every natural number. JavaScript's `String(n)` switches to exponent form (`"1e+21"`) from 10^21, and the counter loses precision well before that, above 2^53.
- Routes.RunIssuesFreshIds: holds for the unbounded counter. In the source it holds only while the counter stays at or below 2^53.
- Routes.RunIdsNeverReused: holds for the unbounded counter. In the source, ids would repeat once the counter passes 2^53.
- ItemStore.Create: requires a payload that passed full validation. This is the only way the routes call it. An unvalidated payload would store `undefined` or NaN fields, which a typed record cannot hold.
- ItemStore.Update: requires a payload that passed partial validation, for the same reason.
- ItemStore.Merge: only the six documented fields are merged. Extra keys that the object spread would copy into the record are not modelled.
- ItemStore.GetAll: has no contract beyond returning the items. The source's defensive copy is meaningless for immutable values.
- QueryKey.ListKey: covers query objects whose values are all strings. Repeated or bracketed parameters that Express turns into arrays or objects are not modelled. Neither is JavaScript's rule that integer-like keys enumerate first.
- Routes.Lookup: takes the first property with the name. With string-valued queries, names are unique in practice.
- ItemStats.GetStats: its `categories` is the corrected breakdown. It counts items whose category is named like an `Object.prototype` member (`"constructor"`, `"toString"`, …), which the source drops (see "## Findings"). The source's breakdown is `ItemStats.BreakdownAsWritten`. `ItemStats.AsWrittenAgreesWithoutInheritedNames` proves the two agree when no such name occurs.
- ItemStats.CategoryListedIff: states the corrected breakdown. In the source, a category named like an `Object.prototype` member is never listed even when an item has it.
- ItemStats.Breakdown: entries are kept in first-encounter order. JavaScript would enumerate integer-like category names first.

## Findings

| source | as written | input that shows it | evidently intended | confidence | as-written member | corrected member |
|---|---|---|---|---|---|---|
| backend/models/item.js:121-127 | the entry for a category is created only when `stats.categories[item.category]` is falsy, on a plain object that inherits from `Object.prototype` | one item whose category is `"constructor"` (a non-blank string, so the validator accepts it): the lookup finds the inherited `Object` function, no entry is created, and the counts sum to 0 while `totalItems` is 1 | every item is counted once under its own category, so the counts sum to `totalItems` | not executed | ItemStats.InheritedCategoryIsDropped | ItemStats.BreakdownCorrect |

=== FILE: cache.dfy ===
/** The list endpoint's response cache: a map from key to data and the time
    it was stored, read with a fixed time-to-live and evicted lazily on a
    stale or missing read. Time is an explicit parameter. */
module ResponseCache {
  import opened Wrappers

  /** Five minutes, in milliseconds. */
  const CACHE_TTL: nat := 5 * 60 * 1000

  datatype Entry<D> = Entry(data: D, timestamp: nat)

  type Cache<D> = map<string, Entry<D>>

  /** `getCacheKey(path, query)`. */
  function CacheKey(path: string, query: string): string {
    path + query
  }

  /** `setCache(key, data)` at time `now`: the entry for `key` is replaced,
      every other entry is kept. */
  function SetCache<D>(c: Cache<D>, key: string, data: D, now: nat): (c': Cache<D>)
    ensures c'.Keys == c.Keys + {key}
    ensures c'[key] == Entry(data, now)
    ensures forall k :: k in c && k != key ==> c'[k] == c[k]
  {
    c[key := Entry(data, now)]
  }

  /** An entry younger than the TTL is served. */
  predicate IsLive<D>(c: Cache<D>, key: string, now: nat) {
    key in c && now - c[key].timestamp < CACHE_TTL
  }

  /** `getCache(key)` at time `now`: the stored data when the entry exists
      and is younger than the TTL (the cache is untouched); otherwise a miss,
      and the key is gone afterwards. */
  function GetCache<D>(c: Cache<D>, key: string, now: nat): (r: (Option<D>, Cache<D>))
    ensures r.0.Some? <==> IsLive(c, key, now)
    ensures r.0.Some? ==> r.0.value == c[key].data && r.1 == c
    ensures r.0.None? ==> key !in r.1 && r.1.Keys == c.Keys - {key}
    ensures forall k :: k in r.1 ==> k in c && r.1[k] == c[k]
  {
    if key in c && now - c[key].timestamp < CACHE_TTL then (Some(c[key].data), c)
    else (None, c - {key})
  }

  /** `cache.clear()`. */
  function Clear<D>(c: Cache<D>): (c': Cache<D>)
    ensures forall k :: k !in c'
  {
    map[]
  }

  /** Data stored at time `t` is read back unchanged at any time `now` with
      `now - t` below the TTL. */
  lemma SetThenGet<D>(c: Cache<D>, key: string, data: D, t: nat, now: nat)
    requires now - t < CACHE_TTL
    ensures GetCache(SetCache(c, key, data, t), key, now).0 == Some(data)
  {
  }

  /** Once the TTL has elapsed the same read is a miss that evicts the key. */
  lemma SetThenGetExpired<D>(c: Cache<D>, key: string, data: D, t: nat, now: nat)
    requires now - t >= CACHE_TTL
    ensures var r := GetCache(SetCache(c, key, data, t), key, now);
      r.0.None? && key !in r.1
  {
  }

  /** Storing under one key does not change what a read of another key
      returns. */
  lemma SetLeavesOtherKeys<D>(c: Cache<D>, key: string, other: string, data: D, t: nat, now: nat)
    requires other != key
    ensures GetCache(SetCache(c, key, data, t), other, now).0 == GetCache(c, other, now).0
  {
  }

  /** After `clear` every read is a miss. */
  lemma ClearedMisses<D>(c: Cache<D>, key: string, now: nat)
    ensures GetCache(Clear(c), key, now).0.None?
  {
  }
}

=== FILE: examples.dfy ===
/** Concrete request scenarios against the three sample items. */
module Scenarios {
  import opened Wrappers
  import opened JsText
  import opened JsValue
  import opened Validator
  import opened ItemStore
  import opened ResponseCache
  import opened QueryKey
  import opened Routes
  import opened Seqs

  function Fresh(t0: nat): Server {
    Server(Seed(t0), map[])
  }

  const ELECTRONICS_FROM_FIFTY: Params := [("category", "Electronics"), ("minPrice", "50")]

  lemma ElectronicsFromFiftyFilters()
    ensures FiltersOf(ELECTRONICS_FROM_FIFTY) == Filters(None, Some("Electronics"), Some("50"), None)
  {
  }

  lemma FiftyParses()
    ensures ParseFloat("50") == Fin(50.0)
  {
    assert NatToString(50) == "50";
    ParseFloatOfDecimal(50);
  }

  const FIFTY_FILTERS := Filters(None, Some("Electronics"), Some("50"), None)

  lemma LaptopMatches(t0: nat)
    ensures Matches(FIFTY_FILTERS, Seed(t0).items[0])
  {
    FiftyParses();
  }

  lemma ChairIsOtherCategory(t0: nat)
    ensures !Matches(FIFTY_FILTERS, Seed(t0).items[1])
  {
    var a := Lower("Furniture");
    var b := Lower("Electronics");
    assert a[0] == 'f' && b[0] == 'e';
  }

  lemma MouseIsCheaper(t0: nat)
    ensures !Matches(FIFTY_FILTERS, Seed(t0).items[2])
  {
    FiftyParses();
  }

  lemma SampleMatches(t0: nat)
    ensures var items := Seed(t0).items;
      Matches(FIFTY_FILTERS, items[0]) && !Matches(FIFTY_FILTERS, items[1]) && !Matches(FIFTY_FILTERS, items[2])
  {
    LaptopMatches(t0);
    ChairIsOtherCategory(t0);
    MouseIsCheaper(t0);
  }

  /** `GET /api/inventory?category=Electronics&minPrice=50` lists only the
      laptop. */
  lemma ElectronicsFromFifty(t0: nat)
    ensures var r := HandleList(Fresh(t0), ELECTRONICS_FROM_FIFTY, t0);
      r.1.status == 200 && !r.1.body.cached && r.1.body.data == [Seed(t0).items[0]]
  {
    var items := Seed(t0).items;
    var f := FIFTY_FILTERS;
    ElectronicsFromFiftyFilters();
    SampleMatches(t0);
    ApplyFiltersIsOneFilter(items, f);
    var p := (it: Item) => Matches(f, it);
    assert Filter(items[2..], p) == [];
    assert items[1..][1..] == items[2..];
    assert Filter(items[1..], p) == [];
  }

  const DESK_LAMP := Payload(Some(Str("Desk Lamp")), None, Some(Str("Furniture")),
                             Some(Number(19.99)), Some(Number(5.0)), None)

  lemma DeskLampName()
    ensures GoodName(DESK_LAMP.name)
  {
    assert !IsWhitespace("Desk Lamp"[0]);
    Utf16LengthBmp("Desk Lamp");
  }

  lemma DeskLampCategory()
    ensures GoodCategory(DESK_LAMP.category)
  {
    assert !IsWhitespace("Furniture"[0]);
  }

  lemma DeskLampAcceptable()
    ensures Acceptable(DESK_LAMP, true)
  {
    DeskLampName();
    DeskLampCategory();
    assert Truncate(5.0) == 5;
  }

  /** What `create` makes of the Desk Lamp payload in a store whose counter
      is at 4. */
  lemma DeskLampCreateAt(s: Store, now: nat, suffix: Base36Text)
    requires s.nextId == 4
    ensures Acceptable(DESK_LAMP, true)
    ensures var c := Create(s, DESK_LAMP, now, suffix);
      c.1.id == "4" && c.0.nextId == 5 &&
      c.1.price == 19.99 && c.1.quantity == 5 && c.1.description == "" &&
      IsGeneratedSkuShape(c.1.sku)
  {
    DeskLampAcceptable();
    assert NatToString(4) == "4";
    assert Truncate(5.0) == 5;
    GeneratedSkuShape(now, suffix);
  }

  /** The sample Desk Lamp payload is created as item "4" with a generated
      SKU matching `^SKU[0-9A-Z]+$`, and the counter moves to 5. */
  lemma DeskLampCreated(t0: nat, now: nat, suffix: Base36Text)
    ensures var r := HandlePost(Fresh(t0), DESK_LAMP, now, suffix);
      r.1.status == 201 && r.1.body.ItemBody? && r.1.body.item.id == "4" && r.0.store.nextId == 5 &&
      r.1.body.item.price == 19.99 && r.1.body.item.quantity == 5 &&
      r.1.body.item.description == "" &&
      IsGeneratedSkuShape(r.1.body.item.sku)
  {
    DeskLampCreateAt(Seed(t0), now, suffix);
  }

  const RESTOCK := Payload(None, None, None, None, Some(Number(3.0)), None)

  lemma RestockAcceptable()
    ensures Acceptable(RESTOCK, false)
  {
    assert Truncate(3.0) == 3;
  }

  lemma ChairIsSecond(t0: nat)
    ensures HasId(Seed(t0), "2") && FindIndex(Seed(t0).items, "2") == 1
  {
    var items := Seed(t0).items;
    assert items[0].id == "1" && items[1].id == "2";
  }

  /** A quantity-only payload changes the quantity and the update time. */
  lemma RestockMerge(it: Item, now: nat)
    ensures Merge(it, RESTOCK, now) == it.(quantity := 3, updatedAt := now)
  {
    RestockAcceptable();
  }

  /** `PUT /api/inventory/2` with `{quantity: 3}` changes only the chair's
      quantity and update time. */
  lemma ChairRestocked(t0: nat, now: nat)
    ensures var r := HandlePut(Fresh(t0), "2", RESTOCK, now);
      r.1.status == 200 && r.1.body.ItemBody? &&
      r.1.body.item == Seed(t0).items[1].(quantity := 3, updatedAt := now)
  {
    var seed := Seed(t0);
    var chair := seed.items[1];
    assert ValidRouteId("2") by {
      assert !IsWhitespace("2"[0]);
    }
    RestockAcceptable();
    ChairIsSecond(t0);
    RestockMerge(chair, now);
    assert Update(seed, "2", RESTOCK, now).1 == Some(chair.(quantity := 3, updatedAt := now));
  }

  /** `DELETE /api/inventory/999` finds nothing and changes nothing. */
  lemma DeleteUnknown(t0: nat)
    ensures var r := HandleDelete(Fresh(t0), "999");
      r.1.status == 404 && r.1.body == Failure("Item not found", []) && r.0 == Fresh(t0)
  {
    assert !IsWhitespace("999"[0]);
  }

  /** A blank id is rejected before the store is consulted. */
  lemma BlankIdRejected(s: Server)
    ensures HandleGet(s, "  ").1.status == 400
  {
    assert IsBlank("  ");
  }

  /** Listing twice within five minutes serves the second answer from the
      cache. */
  lemma SecondListIsCached(t0: nat, query: Params, later: nat)
    requires t0 <= later < t0 + CACHE_TTL
    ensures var first := HandleList(Fresh(t0), query, t0);
      var second := HandleList(first.0, query, later);
      !first.1.body.cached && second.1.body.cached && second.1.body.data == first.1.body.data
  {
  }
}

=== FILE: item.dfy ===
/** The in-memory item store: a sequence of item records in insertion order
    plus the `nextId` counter, with `getAll`, `getById`, `create`, `update`
    and `delete`. Mutating operations return the new store. */
module ItemStore {
  import opened Wrappers
  import opened JsText
  import opened JsValue
  import opened Validator
  import opened Seqs

  /** An item record. Timestamps are milliseconds since the epoch. */
  datatype Item = Item(
    id: string,
    name: string,
    description: string,
    category: string,
    price: real,
    quantity: int,
    sku: string,
    createdAt: nat,
    updatedAt: nat)

  datatype Store = Store(items: seq<Item>, nextId: nat)

  /** `id` is the decimal rendering of a number in [1, nextId). */
  predicate IssuedBelow(id: string, nextId: nat) {
    var k := DecimalValue(id);
    1 <= k < nextId && NatToString(k) == id
  }

  predicate UniqueIds(items: seq<Item>) {
    forall i, j :: 0 <= i < j < |items| ==> items[i].id != items[j].id
  }

  /** The store invariant: every live id was issued from the counter, and no
      two live items share an id. */
  predicate Inv(s: Store) {
    && s.nextId >= 1
    && (forall i :: 0 <= i < |s.items| ==> IssuedBelow(s.items[i].id, s.nextId))
    && UniqueIds(s.items)
  }

  /** The three sample items the process starts with, stamped at `t0`, and
      `nextId = 4`. */
  function Seed(t0: nat): (s: Store)
    ensures Inv(s) && |s.items| == 3 && s.nextId == 4
  {
    DecimalRoundTrip(1);
    DecimalRoundTrip(2);
    DecimalRoundTrip(3);
    Store(
      [ Item("1", "Laptop Computer", "High-performance laptop for business and gaming",
             "Electronics", 999.99, 15, "LAP001", t0, t0),
        Item("2", "Office Chair", "Ergonomic office chair with lumbar support",
             "Furniture", 249.99, 8, "CHR001", t0, t0),
        Item("3", "Wireless Mouse", "Bluetooth wireless mouse with precision tracking",
             "Electronics", 29.99, 50, "MOU001", t0, t0) ],
      4)
  }

  /** `getAll`: the items in insertion order (the source returns a copy;
      values are immutable here). */
  function GetAll(s: Store): seq<Item> {
    s.items
  }

  /** `findIndex(item => item.id === id)`: the first position holding `id`,
      or -1. */
  function FindIndex(items: seq<Item>, id: string): (r: int)
    ensures -1 <= r < |items|
    ensures r >= 0 ==> items[r].id == id && forall j :: 0 <= j < r ==> items[j].id != id
    ensures r == -1 <==> forall j :: 0 <= j < |items| ==> items[j].id != id
  {
    if |items| == 0 then -1
    else if items[0].id == id then 0
    else
      var r := FindIndex(items[1..], id);
      if r == -1 then -1 else r + 1
  }

  predicate HasId(s: Store, id: string) {
    exists i :: 0 <= i < |s.items| && s.items[i].id == id
  }

  /** `getById`: the first item with this id, or nothing. */
  function GetById(s: Store, id: string): (r: Option<Item>)
    ensures r.Some? <==> HasId(s, id)
    ensures r.Some? ==> r.value.id == id && r.value in s.items
  {
    var i := FindIndex(s.items, id);
    if i < 0 then None else Some(s.items[i])
  }

  /** `generateSku`: `SKU`, then the time in base 36, then the random
      characters (`suffix`, standing for `Math.random().toString(36)`
      digits), all upper-cased. */
  function GenerateSku(now: nat, suffix: Base36Text): string {
    Upper("SKU" + Base36(now) + suffix)
  }

  /** `^SKU[0-9A-Z]+$`. */
  predicate IsGeneratedSkuShape(sku: string) {
    && |sku| > 3 && sku[..3] == "SKU"
    && forall i :: 3 <= i < |sku| ==> IsDigit(sku[i]) || ('A' <= sku[i] <= 'Z')
  }

  /** A generated SKU matches `^SKU[0-9A-Z]+$` when the random part is made
      of base-36 digits. */
  lemma GeneratedSkuShape(now: nat, suffix: Base36Text)
    ensures IsGeneratedSkuShape(GenerateSku(now, suffix))
  {
    var raw := "SKU" + Base36(now) + suffix;
    var sku := GenerateSku(now, suffix);
    forall i | 3 <= i < |sku|
      ensures IsDigit(sku[i]) || ('A' <= sku[i] <= 'Z')
    {
      assert sku[i] == UpperChar(raw[i]);
      if i < 3 + |Base36(now)| {
        assert raw[i] == Base36(now)[i - 3];
      } else {
        assert raw[i] == suffix[i - 3 - |Base36(now)|];
      }
    }
  }

  /** `create(itemData)`, for a payload that passed full validation (the
      only way it is called): the next id, the payload's fields with
      `parseFloat` / `parseInt` applied, the description defaulting to "" and
      the SKU generated when the payload's is falsy, both timestamps `now`;
      the record is appended. */
  function Create(s: Store, data: Payload, now: nat, suffix: Base36Text): (r: (Store, Item))
    requires Acceptable(data, true)
    ensures r.1.id == NatToString(s.nextId)
    ensures r.0.items == s.items + [r.1] && r.0.nextId == s.nextId + 1
    ensures r.1.name == data.name.value.s && r.1.category == data.category.value.s
    ensures r.1.price == ParseFloatValue(data.price).r
    ensures r.1.quantity == ParseIntValue(data.quantity).value
    ensures r.1.description == if data.description.Some? then data.description.value.s else ""
    ensures r.1.sku == if data.sku.Some? then data.sku.value.s else GenerateSku(now, suffix)
    ensures r.1.createdAt == now && r.1.updatedAt == now
  {
    var item := Item(
      NatToString(s.nextId),
      data.name.value.s,
      if Truthy(data.description) then data.description.value.s else "",
      data.category.value.s,
      ParseFloatValue(data.price).r,
      ParseIntValue(data.quantity).value,
      if Truthy(data.sku) then data.sku.value.s else GenerateSku(now, suffix),
      now,
      now);
    (Store(s.items + [item], s.nextId + 1), item)
  }

  /** The record `update` builds: the payload's documented fields over the
      current ones, `price` / `quantity` re-parsed when present, `id` and
      `createdAt` kept, `updatedAt` set to `now`. */
  function Merge(current: Item, data: Payload, now: nat): (m: Item)
    requires Acceptable(data, false)
    ensures m.id == current.id && m.createdAt == current.createdAt && m.updatedAt == now
    ensures m.name == if data.name.Some? then data.name.value.s else current.name
    ensures m.description == if data.description.Some? then data.description.value.s else current.description
    ensures m.category == if data.category.Some? then data.category.value.s else current.category
    ensures m.price == if data.price.Some? then ParseFloatValue(data.price).r else current.price
    ensures m.quantity == if data.quantity.Some? then ParseIntValue(data.quantity).value else current.quantity
    ensures m.sku == if data.sku.Some? then data.sku.value.s else current.sku
  {
    var spread := current.(
      name := if data.name.Some? then data.name.value.s else current.name,
      description := if data.description.Some? then data.description.value.s else current.description,
      category := if data.category.Some? then data.category.value.s else current.category,
      sku := if data.sku.Some? then data.sku.value.s else current.sku,
      updatedAt := now);
    var withPrice := if data.price.Some? then spread.(price := ParseFloatValue(data.price).r) else spread;
    if data.quantity.Some? then withPrice.(quantity := ParseIntValue(data.quantity).value) else withPrice
  }

  /** `update(id, updateData)`, for a payload that passed partial
      validation: `None` and no change when the id is absent; otherwise the
      merged record replaces the old one at the same position. */
  function Update(s: Store, id: string, data: Payload, now: nat): (r: (Store, Option<Item>))
    requires Acceptable(data, false)
    ensures !HasId(s, id) ==> r == (s, None)
    ensures HasId(s, id) ==> r.1.Some? && r.0.nextId == s.nextId && |r.0.items| == |s.items|
    ensures HasId(s, id) ==>
      var i := FindIndex(s.items, id);
      && r.0.items[i] == r.1.value == Merge(s.items[i], data, now)
      && (forall j :: 0 <= j < |s.items| && j != i ==> r.0.items[j] == s.items[j])
  {
    var i := FindIndex(s.items, id);
    if i == -1 then (s, None)
    else
      var updated := Merge(s.items[i], data, now);
      (Store(s.items[i := updated], s.nextId), Some(updated))
  }

  /** `delete(id)`: false and no change when the id is absent; otherwise the
      first item with that id is spliced out. */
  function Delete(s: Store, id: string): (r: (Store, bool))
    ensures r.1 <==> HasId(s, id)
    ensures !r.1 ==> r.0 == s
    ensures r.1 ==>
      var i := FindIndex(s.items, id);
      r.0 == Store(s.items[..i] + s.items[i + 1..], s.nextId)
    ensures r.1 ==> |r.0.items| == |s.items| - 1
  {
    var i := FindIndex(s.items, id);
    if i == -1 then (s, false)
    else (Store(s.items[..i] + s.items[i + 1..], s.nextId), true)
  }

  // ---------------------------------------------------------------------
  // The store invariant and the freshness of ids.

  /** `create` keeps the invariant, and the id it hands out was never issued
      before: its number is the old counter, above every number issued so
      far (live or since deleted). */
  lemma CreateKeepsInv(s: Store, data: Payload, now: nat, suffix: Base36Text)
    requires Inv(s) && Acceptable(data, true)
    ensures var r := Create(s, data, now, suffix);
      && Inv(r.0)
      && DecimalValue(r.1.id) == s.nextId
      && !HasId(s, r.1.id)
  {
    var r := Create(s, data, now, suffix);
    DecimalRoundTrip(s.nextId);
    forall i | 0 <= i < |s.items|
      ensures s.items[i].id != r.1.id
    {
      assert DecimalValue(s.items[i].id) < s.nextId;
    }
    assert forall i :: 0 <= i < |s.items| ==> r.0.items[i] == s.items[i];
  }

  /** `update` keeps the invariant: ids do not move. */
  lemma UpdateKeepsInv(s: Store, id: string, data: Payload, now: nat)
    requires Inv(s) && Acceptable(data, false)
    ensures Inv(Update(s, id, data, now).0)
  {
    var r := Update(s, id, data, now);
    assert forall j :: 0 <= j < |s.items| ==> r.0.items[j].id == s.items[j].id;
  }

  /** Removing position `i` keeps the other elements in order. */
  lemma RemoveAtIsSubseq(items: seq<Item>, i: nat)
    requires i < |items|
    ensures SubseqOf(items[..i] + items[i + 1..], items)
  {
    var a, b := items[..i], items[i + 1..];
    SubseqOfRemove(a, items[i], b);
    SplitAt(items, i);
  }

  /** `delete` keeps the invariant, the remaining items keep their relative
      order, and the deleted id can no longer be found. */
  lemma DeleteKeepsInv(s: Store, id: string)
    requires Inv(s)
    ensures var r := Delete(s, id);
      && Inv(r.0)
      && SubseqOf(r.0.items, s.items)
      && GetById(r.0, id).None?
  {
    var r := Delete(s, id);
    if r.1 {
      var i := FindIndex(s.items, id);
      var rest := r.0.items;
      assert forall j :: 0 <= j < |rest| ==> rest[j] == s.items[if j < i then j else j + 1];
      RemoveAtIsSubseq(s.items, i);
      assert UniqueIds(rest) by {
        forall j, k | 0 <= j < k < |rest|
          ensures rest[j].id != rest[k].id
        {
        }
      }
      forall j | 0 <= j < |rest|
        ensures rest[j].id != id && IssuedBelow(rest[j].id, s.nextId)
      {
      }
    } else {
      SubseqOfRefl(s.items);
    }
  }
}

=== FILE: jstext.dfy ===
/** The parts of JavaScript string semantics the backend relies on:
    whitespace and `trim`, `length` in UTF-16 code units, ASCII case mapping,
    `includes`, and decimal / base-36 renderings of integers (`String(n)`,
    `n.toString(36)`). */
module JsText {
  import opened Seqs

  /** WhiteSpace and LineTerminator code points as `String.prototype.trim`
      and `parseFloat` / `parseInt` understand them: TAB, VT, FF, SP, NBSP,
      ZWNBSP, the space separators (category Zs), LF, CR, LS and PS. */
  predicate IsWhitespace(c: char) {
    || c == '\t' || c == '\n' || c == '\U{0B}' || c == '\U{0C}' || c == '\r'
    || c == ' ' || c == '\U{A0}' || c == '\U{1680}'
    || ('\U{2000}' <= c <= '\U{200A}')
    || c == '\U{2028}' || c == '\U{2029}' || c == '\U{202F}' || c == '\U{205F}'
    || c == '\U{3000}' || c == '\U{FEFF}'
  }

  /** Every character is whitespace (the empty string included). */
  predicate IsBlank(s: string) {
    forall i :: 0 <= i < |s| ==> IsWhitespace(s[i])
  }

  /** Drops leading whitespace; the result is a suffix of `s`. */
  function TrimStart(s: string): (r: string)
    ensures |r| <= |s| && r == s[|s| - |r|..]
    ensures |r| > 0 ==> !IsWhitespace(r[0])
    ensures IsBlank(s[..|s| - |r|])
    decreases |s|
  {
    if |s| > 0 && IsWhitespace(s[0]) then TrimStart(s[1..]) else s
  }

  /** Drops trailing whitespace; the result is a prefix of `s`. */
  function TrimEnd(s: string): (r: string)
    ensures |r| <= |s| && r == s[..|r|]
    ensures |r| > 0 ==> !IsWhitespace(r[|r| - 1])
    ensures IsBlank(s[|r|..])
    decreases |s|
  {
    if |s| > 0 && IsWhitespace(s[|s| - 1]) then TrimEnd(s[..|s| - 1]) else s
  }

  /** `String.prototype.trim`. */
  function Trim(s: string): string {
    TrimEnd(TrimStart(s))
  }

  /** `s.trim().length === 0` holds exactly for blank strings. */
  lemma TrimEmptyIffBlank(s: string)
    ensures |Trim(s)| == 0 <==> IsBlank(s)
  {
    var t := TrimStart(s);
    if |Trim(s)| == 0 {
      assert t[0..] == t;
      assert |t| == 0;
      assert s[..|s|] == s;
    }
  }

  /** A code point outside the Basic Multilingual Plane, which UTF-16
      encodes as a surrogate pair. */
  predicate IsAstral(c: char) {
    c as int >= 0x1_0000
  }

  /** `String.prototype.length`: UTF-16 code units, so a code point above
      U+FFFF counts twice. */
  function Utf16Length(s: string): (n: nat)
    ensures n == |s| + |Filter(s, IsAstral)|
    ensures |s| <= n <= 2 * |s|
  {
    if |s| == 0 then 0
    else (if s[0] as int >= 0x1_0000 then 2 else 1) + Utf16Length(s[1..])
  }

  /** Inside the Basic Multilingual Plane the JavaScript length is the number
      of characters. */
  lemma {:induction false} Utf16LengthBmp(s: string)
    requires forall i :: 0 <= i < |s| ==> s[i] as int < 0x1_0000
    ensures Utf16Length(s) == |s|
  {
    if |s| > 0 {
      Utf16LengthBmp(s[1..]);
    }
  }

  function LowerChar(c: char): char {
    if 'A' <= c <= 'Z' then (c as int + 32) as char else c
  }

  function UpperChar(c: char): char {
    if 'a' <= c <= 'z' then (c as int - 32) as char else c
  }

  /** `toLowerCase`, restricted to the ASCII letters. */
  function Lower(s: string): string {
    seq(|s|, i requires 0 <= i < |s| => LowerChar(s[i]))
  }

  /** `toUpperCase`, restricted to the ASCII letters. */
  function Upper(s: string): string {
    seq(|s|, i requires 0 <= i < |s| => UpperChar(s[i]))
  }

  predicate StartsWith(s: string, prefix: string) {
    |prefix| <= |s| && s[..|prefix|] == prefix
  }

  /** `hay.includes(needle)`. */
  predicate Includes(hay: string, needle: string)
    decreases |hay|
  {
    StartsWith(hay, needle) || (|hay| > 0 && Includes(hay[1..], needle))
  }

  /** `includes` holds exactly when the needle starts at some position of the
      haystack. */
  lemma {:induction false} IncludesIffOccurs(hay: string, needle: string)
    ensures Includes(hay, needle) <==> exists i :: 0 <= i <= |hay| && StartsWith(hay[i..], needle)
    decreases |hay|
  {
    assert hay[0..] == hay;
    if |hay| > 0 {
      IncludesIffOccurs(hay[1..], needle);
      if Includes(hay[1..], needle) {
        var i :| 0 <= i <= |hay[1..]| && StartsWith(hay[1..][i..], needle);
        assert hay[1..][i..] == hay[i + 1..];
      }
      if exists i :: 0 <= i <= |hay| && StartsWith(hay[i..], needle) {
        var i :| 0 <= i <= |hay| && StartsWith(hay[i..], needle);
        if i > 0 {
          assert hay[1..][i - 1..] == hay[i..];
          assert StartsWith(hay[1..][i - 1..], needle);
        }
      }
    }
  }

  predicate IsDigit(c: char) {
    '0' <= c <= '9'
  }

  predicate IsDigits(s: string) {
    forall i :: 0 <= i < |s| ==> IsDigit(s[i])
  }

  function DigitValue(c: char): nat {
    if IsDigit(c) then c as int - '0' as int else 0
  }

  function DigitChar(d: nat): (c: char)
    requires d < 10
    ensures IsDigit(c) && DigitValue(c) == d
  {
    ('0' as int + d) as char
  }

  /** The value of a string of decimal digits, most significant first
      (leading zeros allowed, as `parseInt` accepts them). */
  function DecimalValue(s: string): nat {
    if |s| == 0 then 0
    else 10 * DecimalValue(s[..|s| - 1]) + DigitValue(s[|s| - 1])
  }

  /** `String(n)` for a natural number: decimal digits, no leading zero. */
  function NatToString(n: nat): (r: string)
    ensures |r| > 0 && IsDigits(r)
    ensures |r| > 1 ==> r[0] != '0'
  {
    if n < 10 then [DigitChar(n)] else NatToString(n / 10) + [DigitChar(n % 10)]
  }

  /** Reading back the decimal rendering of `n` gives `n`. */
  lemma {:induction false} DecimalRoundTrip(n: nat)
    ensures DecimalValue(NatToString(n)) == n
  {
    var r := NatToString(n);
    if n >= 10 {
      DecimalRoundTrip(n / 10);
      assert r[..|r| - 1] == NatToString(n / 10);
    } else {
      assert r[..0] == [];
    }
  }

  /** Distinct numbers have distinct decimal renderings. */
  lemma NatToStringInjective(a: nat, b: nat)
    ensures NatToString(a) == NatToString(b) ==> a == b
  {
    if NatToString(a) == NatToString(b) {
      DecimalRoundTrip(a);
      DecimalRoundTrip(b);
    }
  }

  function Base36Digit(d: nat): (c: char)
    requires d < 36
  {
    if d < 10 then ('0' as int + d) as char else ('a' as int + d - 10) as char
  }

  predicate IsBase36Char(c: char) {
    IsDigit(c) || ('a' <= c <= 'z')
  }

  /** Text made of lower-case base-36 digits, as `toString(36)` prints it. */
  type Base36Text = s: string | forall i :: 0 <= i < |s| ==> IsBase36Char(s[i])

  /** `n.toString(36)` for a natural number. */
  function Base36(n: nat): (r: string)
    ensures |r| > 0
    ensures forall i :: 0 <= i < |r| ==> IsBase36Char(r[i])
  {
    if n < 36 then [Base36Digit(n)] else Base36(n / 36) + [Base36Digit(n % 36)]
  }
}

=== FILE: jsvalue.dfy ===
/** JSON values as they arrive in a request body, JavaScript truthiness, and
    the two number parsers the backend applies to them: `parseFloat` (price,
    price filters) and `parseInt` without a radix (quantity). */
module JsValue {
  import opened Wrappers
  import opened JsText

  /** A JSON value. `Obj` stands for any object or array. */
  datatype Value = Str(s: string) | Number(n: real) | Bool(b: bool) | Null | Obj

  /** JavaScript truthiness of a value that may be `undefined` (`None`). */
  predicate Truthy(v: Option<Value>) {
    match v
    case None => false
    case Some(Str(s)) => s != ""
    case Some(Number(n)) => n != 0.0
    case Some(Bool(b)) => b
    case Some(Null) => false
    case Some(Obj) => true
  }

  /** A JavaScript number produced by parsing. */
  datatype Num = NaN | Inf(negative: bool) | Fin(r: real)

  /** Length of the run of decimal digits at the start of `s`. */
  function DigitRun(s: string): (k: nat)
    ensures k <= |s|
    ensures forall i :: 0 <= i < k ==> IsDigit(s[i])
    ensures k < |s| ==> !IsDigit(s[k])
  {
    if |s| > 0 && IsDigit(s[0]) then 1 + DigitRun(s[1..]) else 0
  }

  predicate IsHexDigit(c: char) {
    IsDigit(c) || ('a' <= c <= 'f') || ('A' <= c <= 'F')
  }

  function HexDigitValue(c: char): nat {
    if IsDigit(c) then c as int - '0' as int
    else if 'a' <= c <= 'f' then c as int - 'a' as int + 10
    else if 'A' <= c <= 'F' then c as int - 'A' as int + 10
    else 0
  }

  /** Length of the run of hexadecimal digits at the start of `s`. */
  function HexRun(s: string): (k: nat)
    ensures k <= |s|
    ensures forall i :: 0 <= i < k ==> IsHexDigit(s[i])
    ensures k < |s| ==> !IsHexDigit(s[k])
  {
    if |s| > 0 && IsHexDigit(s[0]) then 1 + HexRun(s[1..]) else 0
  }

  function HexValue(s: string): nat {
    if |s| == 0 then 0
    else 16 * HexValue(s[..|s| - 1]) + HexDigitValue(s[|s| - 1])
  }

  /** An optional leading sign: whether it was `-`, and what follows it. */
  function SplitSign(s: string): (bool, string) {
    if |s| > 0 && (s[0] == '+' || s[0] == '-') then (s[0] == '-', s[1..]) else (false, s)
  }

  function Pow10(e: nat): (p: nat)
    ensures p >= 1
  {
    if e == 0 then 1 else 10 * Pow10(e - 1)
  }

  /** `m × 10^e`. */
  function Scale(m: real, e: int): real {
    if e >= 0 then m * Pow10(e) as real else m / Pow10(-e) as real
  }

  /** The exponent written by a leading `e`/`E` part (`e+12`, `E-3`), or 0 when
      `s` does not start with a complete one. */
  function ExponentOf(s: string): int {
    if |s| >= 2 && (s[0] == 'e' || s[0] == 'E') then
      var body := if s[1] == '+' || s[1] == '-' then s[2..] else s[1..];
      var k := DigitRun(body);
      if k == 0 then 0
      else if s[1] == '-' then -(DecimalValue(body[..k]) as int)
      else DecimalValue(body[..k])
    else 0
  }

  /** Applies a parsed leading minus sign. */
  function Signed(negative: bool, x: Num): Num {
    match x
    case NaN => NaN
    case Inf(_) => Inf(negative)
    case Fin(r) => Fin(if negative then -r else r)
  }

  /** The longest unsigned decimal literal at the start of `u` (digits, an
      optional fraction, an optional exponent); NaN when there is none. */
  function DecimalLiteral(u: string): Num {
    var k := DigitRun(u);
    var rest := u[k..];
    var dot := |rest| > 0 && rest[0] == '.';
    var f := if dot then DigitRun(rest[1..]) else 0;
    if k == 0 && f == 0 then NaN
    else
      var fraction := if dot then rest[1..][..f] else "";
      var tail := if dot then rest[1 + f..] else rest;
      var mantissa := DecimalValue(u[..k]) as real + DecimalValue(fraction) as real / Pow10(f) as real;
      Fin(Scale(mantissa, ExponentOf(tail)))
  }

  /** `parseFloat` on a string: skip leading whitespace, read an optional
      sign, then `Infinity` or the longest decimal literal; NaN when there is
      none. Rounding to the nearest double is not modelled. */
  function ParseFloat(s: string): Num {
    var (negative, u) := SplitSign(TrimStart(s));
    Signed(negative, if StartsWith(u, "Infinity") then Inf(false) else DecimalLiteral(u))
  }

  /** The digits of an unsigned `parseInt` operand: hexadecimal after a
      `0x`/`0X` prefix, decimal otherwise; `None` when there are none. */
  function UnsignedInt(u: string): Option<nat> {
    if StartsWith(u, "0x") || StartsWith(u, "0X") then
      var k := HexRun(u[2..]);
      if k == 0 then None else Some(HexValue(u[2..][..k]))
    else
      var k := DigitRun(u);
      if k == 0 then None else Some(DecimalValue(u[..k]))
  }

  /** `parseInt` on a string with no radix: skip leading whitespace, read an
      optional sign, then the digits `UnsignedInt` accepts; NaN (`None`) when
      there are none. */
  function ParseInt(s: string): Option<int> {
    var (negative, u) := SplitSign(TrimStart(s));
    match UnsignedInt(u)
    case None => None
    case Some(m) => Some(if negative then -(m as int) else m as int)
  }

  /** Truncation toward zero, which is what `parseInt(String(x))` does to a
      number written without an exponent. */
  function Truncate(x: real): int {
    if x >= 0.0 then x.Floor else -((-x).Floor)
  }

  /** `parseFloat(v)`: the argument is first converted to a string, so
      `undefined`, `null`, booleans and objects give NaN and a JSON number
      gives itself back. */
  function ParseFloatValue(v: Option<Value>): Num {
    match v
    case Some(Str(s)) => ParseFloat(s)
    case Some(Number(n)) => Fin(n)
    case _ => NaN
  }

  /** `parseInt(v)` with no radix; `None` is NaN. */
  function ParseIntValue(v: Option<Value>): Option<int> {
    match v
    case Some(Str(s)) => ParseInt(s)
    case Some(Number(n)) => Some(Truncate(n))
    case _ => None
  }

  /** A string that starts with a digit is left alone by the whitespace
      skip and the sign split. */
  lemma DigitStartUntouched(s: string)
    requires |s| > 0 && IsDigit(s[0])
    ensures SplitSign(TrimStart(s)) == (false, s)
  {
    assert !IsWhitespace(s[0]);
  }

  /** The decimal rendering of a natural number parses back to it. */
  lemma ParseIntOfDecimal(n: nat)
    ensures ParseInt(NatToString(n)) == Some(n)
  {
    var s := NatToString(n);
    DigitStartUntouched(s);
    assert !StartsWith(s, "0x") && !StartsWith(s, "0X") by {
      if |s| >= 2 {
        assert IsDigit(s[1]);
      }
    }
    DigitRunAll(s);
    assert s[..|s|] == s;
    DecimalRoundTrip(n);
  }

  /** The decimal rendering of a natural number parses back to it. */
  lemma ParseFloatOfDecimal(n: nat)
    ensures ParseFloat(NatToString(n)) == Fin(n as real)
  {
    var s := NatToString(n);
    DigitStartUntouched(s);
    assert !StartsWith(s, "Infinity") by {
      assert IsDigit(s[0]);
    }
    DigitRunAll(s);
    assert s[..|s|] == s;
    assert s[|s|..] == "";
    DecimalRoundTrip(n);
    assert DecimalLiteral(s) == Fin(n as real);
  }

  lemma {:induction false} DigitRunAll(s: string)
    requires IsDigits(s)
    ensures DigitRun(s) == |s|
  {
    if |s| > 0 {
      DigitRunAll(s[1..]);
    }
  }
}

=== FILE: querykey.dfy ===
/** The list endpoint's cache key, `'inventory' + JSON.stringify(req.query)`,
    for a query object whose values are strings, together with a reader that
    recovers the query from the key. The round trip shows that distinct
    queries never share a cache entry. */
module QueryKey {
  import opened Wrappers
  import opened ResponseCache
  import opened Seqs

  /** The query object's properties, in enumeration order. */
  type Params = seq<(string, string)>

  const LIST_PATH := "inventory"

  function HexLower(d: nat): (c: char)
    requires d < 16
  {
    if d < 10 then ('0' as int + d) as char else ('a' as int + d - 10) as char
  }

  /** How `JSON.stringify` writes one character inside a string literal:
      quote and backslash are escaped, the control characters with a short
      form use it, the other control characters become `\u00xx` in lower
      case hex, and everything else is written as is. */
  function EscapeChar(c: char): string {
    if c == '"' then "\\\""
    else if c == '\\' then "\\\\"
    else if c == '\U{8}' then "\\b"
    else if c == '\t' then "\\t"
    else if c == '\n' then "\\n"
    else if c == '\U{C}' then "\\f"
    else if c == '\r' then "\\r"
    else if (c as int) < 0x20 then "\\u00" + [HexLower(c as int / 16), HexLower(c as int % 16)]
    else [c]
  }

  function Escape(s: string): string {
    if |s| == 0 then "" else EscapeChar(s[0]) + Escape(s[1..])
  }

  /** `"key":"value"`. */
  function Member(m: (string, string)): string {
    "\"" + (Escape(m.0) + ("\":\"" + (Escape(m.1) + "\"")))
  }

  /** The comma-separated members. */
  function Members(p: Params): string {
    if |p| == 0 then ""
    else if |p| == 1 then Member(p[0])
    else Member(p[0]) + ("," + Members(p[1..]))
  }

  /** `JSON.stringify` of an object with string values. */
  function Stringify(p: Params): string {
    "{" + (Members(p) + "}")
  }

  /** `getCacheKey('inventory', JSON.stringify(req.query))`. */
  function ListKey(p: Params): string {
    CacheKey(LIST_PATH, Stringify(p))
  }

  // ---------------------------------------------------------------------
  // Reading a key back.

  function HexValueOf(c: char): Option<nat> {
    if '0' <= c <= '9' then Some(c as int - '0' as int)
    else if 'a' <= c <= 'f' then Some(c as int - 'a' as int + 10)
    else None
  }

  /** The character an escape sequence stands for; `s` starts after the
      backslash. Returns the rest of the input. */
  function Unescape(s: string): (r: Option<(char, string)>)
    ensures r.Some? ==> |r.value.1| < |s|
  {
    if |s| == 0 then None
    else if s[0] == '"' then Some(('"', s[1..]))
    else if s[0] == '\\' then Some(('\\', s[1..]))
    else if s[0] == 'b' then Some(('\U{8}', s[1..]))
    else if s[0] == 't' then Some(('\t', s[1..]))
    else if s[0] == 'n' then Some(('\n', s[1..]))
    else if s[0] == 'f' then Some(('\U{C}', s[1..]))
    else if s[0] == 'r' then Some(('\r', s[1..]))
    else if |s| >= 5 && s[..3] == "u00" && HexValueOf(s[3]).Some? && HexValueOf(s[4]).Some?
            && HexValueOf(s[3]).value < 2 then
      Some(((HexValueOf(s[3]).value * 16 + HexValueOf(s[4]).value) as char, s[5..]))
    else None
  }

  /** Reads the body of a string literal up to its closing quote; `s` starts
      after the opening quote. Returns the text and the rest after the
      closing quote. */
  function ReadString(s: string): (r: Option<(string, string)>)
    ensures r.Some? ==> |r.value.1| < |s|
    decreases |s|
  {
    if |s| == 0 then None
    else if s[0] == '"' then Some(("", s[1..]))
    else if s[0] == '\\' then
      match Unescape(s[1..])
      case None => None
      case Some((c, rest)) =>
        match ReadString(rest)
        case None => None
        case Some((text, after)) => Some(([c] + text, after))
    else
      match ReadString(s[1..])
      case None => None
      case Some((text, after)) => Some(([s[0]] + text, after))
  }

  /** Reads the members of an object and its closing brace; `s` starts after
      the opening brace (or after a comma). */
  function ReadMembers(s: string): Option<Params>
    decreases |s|
  {
    if s == "}" then Some([])
    else if |s| == 0 || s[0] != '"' then None
    else
      match ReadString(s[1..])
      case None => None
      case Some((key, r1)) =>
        if |r1| < 2 || r1[..2] != ":\"" then None
        else
          match ReadString(r1[2..])
          case None => None
          case Some((value, r2)) =>
            if r2 == "}" then Some([(key, value)])
            else if |r2| > 0 && r2[0] == ',' then
              match ReadMembers(r2[1..])
              case None => None
              case Some(more) => Some([(key, value)] + more)
            else None
  }

  /** Recovers the query from a list cache key. */
  function ReadListKey(k: string): Option<Params> {
    var n := |LIST_PATH|;
    if |k| > n && k[..n] == LIST_PATH && k[n] == '{' then ReadMembers(k[n + 1..])
    else None
  }

  // ---------------------------------------------------------------------
  // Round trip.

  /** The characters `JSON.stringify` writes as a backslash and a letter. */
  predicate ShortEscaped(c: char) {
    c == '"' || c == '\\' || c == '\U{8}' || c == '\t' || c == '\n' || c == '\U{C}' || c == '\r'
  }

  lemma UnescapeShort(c: char, rest: string)
    requires ShortEscaped(c)
    ensures var e := EscapeChar(c);
      |e| == 2 && e[0] == '\\' && Unescape(e[1..] + rest) == Some((c, rest))
  {
    var u := EscapeChar(c)[1..] + rest;
    assert u[1..] == rest;
  }

  lemma UnescapeHex(c: char, rest: string)
    requires !ShortEscaped(c) && (c as int) < 0x20
    ensures var e := EscapeChar(c);
      |e| == 6 && e[0] == '\\' && Unescape(e[1..] + rest) == Some((c, rest))
  {
    var hi := c as int / 16;
    var lo := c as int % 16;
    var u := EscapeChar(c)[1..] + rest;
    assert u == "u00" + [HexLower(hi), HexLower(lo)] + rest;
    assert u[..3] == "u00";
    assert u[5..] == rest;
    assert HexValueOf(HexLower(hi)) == Some(hi);
    assert HexValueOf(HexLower(lo)) == Some(lo);
  }

  /** A backslash followed by an escape that stands for `c` contributes `c`. */
  lemma ReadAfterEscape(u: string, c: char, rest: string)
    requires Unescape(u) == Some((c, rest)) && ReadString(rest).Some?
    ensures ReadString("\\" + u) == Some(([c] + ReadString(rest).value.0, ReadString(rest).value.1))
  {
    assert ("\\" + u)[1..] == u;
  }

  /** One escaped character is read back as itself. */
  lemma ReadEscapedChar(c: char, rest: string)
    requires ReadString(rest).Some?
    ensures ReadString(EscapeChar(c) + rest)
            == Some(([c] + ReadString(rest).value.0, ReadString(rest).value.1))
  {
    var e := EscapeChar(c);
    if ShortEscaped(c) || (c as int) < 0x20 {
      if ShortEscaped(c) {
        UnescapeShort(c, rest);
      } else {
        UnescapeHex(c, rest);
      }
      assert e + rest == "\\" + (e[1..] + rest);
      ReadAfterEscape(e[1..] + rest, c, rest);
    } else {
      assert e == [c];
      assert (e + rest)[1..] == rest;
    }
  }

  /** An escaped string followed by a closing quote is read back exactly;
      the reader stops after that quote. */
  lemma {:induction false} ReadEscaped(x: string, t: string)
    requires |t| > 0 && t[0] == '"'
    ensures ReadString(Escape(x) + t) == Some((x, t[1..]))
    decreases |x|
  {
    if |x| == 0 {
      assert Escape(x) + t == t;
    } else {
      var e, r := EscapeChar(x[0]), Escape(x[1..]);
      assert Escape(x) == e + r;
      ConcatAssoc(e, r, t);
      ReadEscaped(x[1..], t);
      ReadEscapedChar(x[0], r + t);
      assert [x[0]] + x[1..] == x;
    }
  }

  /** A member followed by `tail`, written right-nested. */
  lemma MemberThen(m: (string, string), tail: string)
    ensures Member(m) + tail == "\"" + (Escape(m.0) + ("\":\"" + (Escape(m.1) + ("\"" + tail))))
  {
    var ek, ev := Escape(m.0), Escape(m.1);
    var z := ev + "\"";
    var y := "\":\"" + z;
    var x := ek + y;
    ConcatAssoc("\"", x, tail);
    ConcatAssoc(ek, y, tail);
    ConcatAssoc("\":\"", z, tail);
    ConcatAssoc(ev, "\"", tail);
  }

  /** Reading a member followed by `tail` yields its key and value and
      leaves `tail`. */
  lemma ReadMember(m: (string, string), tail: string)
    ensures var s := Member(m) + tail;
      |s| > 0 && s[0] == '"' && ReadString(s[1..]).Some? &&
      ReadString(s[1..]).value.0 == m.0 &&
      var r1 := ReadString(s[1..]).value.1;
      |r1| >= 2 && r1[..2] == ":\"" && ReadString(r1[2..]) == Some((m.1, tail))
  {
    var ek, ev := Escape(m.0), Escape(m.1);
    var w := ev + ("\"" + tail);
    var b := "\":\"" + w;
    MemberThen(m, tail);
    var s := Member(m) + tail;
    assert s[1..] == ek + b;
    ReadEscaped(m.0, b);
    var r1 := b[1..];
    assert r1 == ":\"" + w;
    assert r1[..2] == ":\"";
    assert r1[2..] == w;
    ReadEscaped(m.1, "\"" + tail);
  }

  lemma ReadLastMember(m: (string, string))
    ensures ReadMembers(Member(m) + "}") == Some([m])
  {
    ReadMember(m, "}");
  }

  lemma ReadNextMember(m: (string, string), rest: string)
    ensures ReadMembers(Member(m) + ("," + rest)) ==
      (match ReadMembers(rest) case None => None case Some(more) => Some([m] + more))
  {
    ReadMember(m, "," + rest);
    assert ("," + rest)[1..] == rest;
  }

  /** The members of a query, followed by the closing brace, are read back
      exactly. */
  lemma {:induction false} ReadMembersRoundTrip(p: Params)
    ensures ReadMembers(Members(p) + "}") == Some(p)
    decreases |p|
  {
    if |p| == 1 {
      ReadLastMember(p[0]);
      assert [p[0]] == p;
    } else if |p| > 1 {
      var m, ms := Member(p[0]), Members(p[1..]);
      ReadMembersRoundTrip(p[1..]);
      ConcatAssoc(m, "," + ms, "}");
      ConcatAssoc(",", ms, "}");
      ReadNextMember(p[0], ms + "}");
      assert [p[0]] + p[1..] == p;
    }
  }

  /** The cache key of a query determines the query. */
  lemma ListKeyRoundTrip(p: Params)
    ensures ReadListKey(ListKey(p)) == Some(p)
  {
    var s := Stringify(p);
    var k := ListKey(p);
    assert k == LIST_PATH + s;
    assert k[..|LIST_PATH|] == LIST_PATH;
    assert k[|LIST_PATH|..] == s;
    assert k[|LIST_PATH| + 1..] == s[1..] == Members(p) + "}";
    ReadMembersRoundTrip(p);
  }

  /** Distinct queries have distinct cache keys (in particular the same
      filters listed in another order are a separate entry). */
  lemma ListKeyInjective(p: Params, q: Params)
    ensures ListKey(p) == ListKey(q) ==> p == q
  {
    ListKeyRoundTrip(p);
    ListKeyRoundTrip(q);
  }
}

=== FILE: routes.dfy ===
/** The five inventory endpoints as transitions of a server state (the item
    store and the list cache): the list pipeline with its cache, the status
    decisions of the item endpoints, and the invariants every request keeps. */
module Routes {
  import opened Wrappers
  import opened JsText
  import opened JsValue
  import opened Seqs
  import opened Validator
  import opened ItemStore
  import opened ResponseCache
  import opened QueryKey

  datatype Server = Server(store: Store, cache: Cache<seq<Item>>)

  // ---------------------------------------------------------------------
  // The list pipeline.

  /** The four recognised query parameters, each absent or a string. */
  datatype Filters = Filters(
    q: Option<string>,
    category: Option<string>,
    minPrice: Option<string>,
    maxPrice: Option<string>)

  /** The value of the first property named `key`. */
  function Lookup(p: Params, key: string): (r: Option<string>)
    ensures r.None? <==> forall i :: 0 <= i < |p| ==> p[i].0 != key
    ensures r.Some? ==> exists i :: 0 <= i < |p| && p[i] == (key, r.value)
  {
    if |p| == 0 then None
    else if p[0].0 == key then Some(p[0].1)
    else
      var r := Lookup(p[1..], key);
      assert r.Some? ==> exists i :: 1 <= i < |p| && p[i] == (key, r.value) by {
        if r.Some? {
          var i :| 0 <= i < |p[1..]| && p[1..][i] == (key, r.value);
          assert p[i + 1] == (key, r.value);
        }
      }
      r
  }

  /** `const { q, category, minPrice, maxPrice } = req.query`. */
  function FiltersOf(p: Params): Filters {
    Filters(Lookup(p, "q"), Lookup(p, "category"), Lookup(p, "minPrice"), Lookup(p, "maxPrice"))
  }

  /** A filter applies when its value is truthy: present and non-empty. */
  predicate Active(v: Option<string>) {
    v.Some? && |v.value| > 0
  }

  /** Case-insensitive substring search in the name or the description. */
  predicate MatchesQuery(it: Item, q: string) {
    Includes(Lower(it.name), Lower(q)) || Includes(Lower(it.description), Lower(q))
  }

  predicate MatchesCategory(it: Item, c: string) {
    Lower(it.category) == Lower(c)
  }

  /** `price >= parseFloat(bound)`: false against NaN, true against
      -Infinity, false against +Infinity. */
  predicate AtLeast(price: real, bound: Num) {
    match bound
    case NaN => false
    case Inf(negative) => negative
    case Fin(b) => price >= b
  }

  /** `price <= parseFloat(bound)`. */
  predicate AtMost(price: real, bound: Num) {
    match bound
    case NaN => false
    case Inf(negative) => !negative
    case Fin(b) => price <= b
  }

  predicate QueryOk(f: Filters, it: Item) {
    Active(f.q) ==> MatchesQuery(it, f.q.value)
  }

  predicate CategoryOk(f: Filters, it: Item) {
    Active(f.category) ==> MatchesCategory(it, f.category.value)
  }

  predicate MinOk(f: Filters, it: Item) {
    Active(f.minPrice) ==> AtLeast(it.price, ParseFloat(f.minPrice.value))
  }

  predicate MaxOk(f: Filters, it: Item) {
    Active(f.maxPrice) ==> AtMost(it.price, ParseFloat(f.maxPrice.value))
  }

  /** An item passes the list endpoint's filters. */
  predicate Matches(f: Filters, it: Item) {
    QueryOk(f, it) && CategoryOk(f, it) && MinOk(f, it) && MaxOk(f, it)
  }

  /** The list endpoint's filter chain, applied in the order q, category,
      minPrice, maxPrice, each only when its parameter is truthy. */
  function ApplyFilters(items: seq<Item>, f: Filters): seq<Item> {
    var a := if Active(f.q) then Filter(items, (it: Item) => MatchesQuery(it, f.q.value)) else items;
    var b := if Active(f.category) then Filter(a, (it: Item) => MatchesCategory(it, f.category.value)) else a;
    var c := if Active(f.minPrice) then Filter(b, (it: Item) => AtLeast(it.price, ParseFloat(f.minPrice.value))) else b;
    if Active(f.maxPrice) then Filter(c, (it: Item) => AtMost(it.price, ParseFloat(f.maxPrice.value))) else c
  }

  /** A conditional filter stage is a filter by "inactive or passes". */
  lemma StageIsFilter(items: seq<Item>, active: bool, p: Item -> bool, stage: Item -> bool)
    requires forall it :: stage(it) == (active ==> p(it))
    ensures (if active then Filter(items, p) else items) == Filter(items, stage)
  {
    if active {
      FilterFilter(items, p, (it: Item) => true, stage);
      FilterKeepsAll(Filter(items, p), (it: Item) => true);
    } else {
      FilterKeepsAll(items, stage);
    }
  }

  /** The chain of four filters is one filter by the conjunction of the
      active conditions, so their order does not matter. */
  lemma ApplyFiltersIsOneFilter(items: seq<Item>, f: Filters)
    ensures ApplyFilters(items, f) == Filter(items, (it: Item) => Matches(f, it))
  {
    var pq := (it: Item) => QueryOk(f, it);
    var pc := (it: Item) => CategoryOk(f, it);
    var pmin := (it: Item) => MinOk(f, it);
    var pmax := (it: Item) => MaxOk(f, it);
    var p2 := (it: Item) => QueryOk(f, it) && CategoryOk(f, it);
    var p3 := (it: Item) => QueryOk(f, it) && CategoryOk(f, it) && MinOk(f, it);
    var p4 := (it: Item) => Matches(f, it);
    var a := if Active(f.q) then Filter(items, (it: Item) => MatchesQuery(it, f.q.value)) else items;
    if Active(f.q) {
      StageIsFilter(items, true, (it: Item) => MatchesQuery(it, f.q.value), pq);
    } else {
      StageIsFilter(items, false, (it: Item) => true, pq);
    }
    assert a == Filter(items, pq);
    var b := if Active(f.category) then Filter(a, (it: Item) => MatchesCategory(it, f.category.value)) else a;
    if Active(f.category) {
      StageIsFilter(a, true, (it: Item) => MatchesCategory(it, f.category.value), pc);
    } else {
      StageIsFilter(a, false, (it: Item) => true, pc);
    }
    FilterFilter(items, pq, pc, p2);
    assert b == Filter(items, p2);
    var c := if Active(f.minPrice) then Filter(b, (it: Item) => AtLeast(it.price, ParseFloat(f.minPrice.value))) else b;
    if Active(f.minPrice) {
      StageIsFilter(b, true, (it: Item) => AtLeast(it.price, ParseFloat(f.minPrice.value)), pmin);
    } else {
      StageIsFilter(b, false, (it: Item) => true, pmin);
    }
    FilterFilter(items, p2, pmin, p3);
    assert c == Filter(items, p3);
    if Active(f.maxPrice) {
      StageIsFilter(c, true, (it: Item) => AtMost(it.price, ParseFloat(f.maxPrice.value)), pmax);
    } else {
      StageIsFilter(c, false, (it: Item) => true, pmax);
    }
    FilterFilter(items, p3, pmax, p4);
  }

  /** The listed items are exactly the stored items that pass every active
      filter, in store order. */
  lemma ApplyFiltersExact(items: seq<Item>, f: Filters)
    ensures var r := ApplyFilters(items, f);
      SubseqOf(r, items) &&
      (forall it :: it in r <==> it in items && Matches(f, it)) &&
      (forall it :: multiset(r)[it] == if Matches(f, it) then multiset(items)[it] else 0)
  {
    ApplyFiltersIsOneFilter(items, f);
    FilterIsSubseq(items, (it: Item) => Matches(f, it));
    FilterMultiset(items, (it: Item) => Matches(f, it));
    var r := ApplyFilters(items, f);
    forall it | it in r
      ensures it in items && Matches(f, it)
    {
      var i :| 0 <= i < |r| && r[i] == it;
    }
    forall it | it in items && Matches(f, it)
      ensures it in r
    {
      var i :| 0 <= i < |items| && items[i] == it;
    }
  }

  /** With no truthy parameter the whole store is listed. */
  lemma NoFiltersListsAll(items: seq<Item>, f: Filters)
    requires !Active(f.q) && !Active(f.category) && !Active(f.minPrice) && !Active(f.maxPrice)
    ensures ApplyFilters(items, f) == items
  {
  }

  // ---------------------------------------------------------------------
  // Requests and responses.

  datatype Request =
    | ListItems(query: Params)
    | GetItem(id: string)
    | PostItem(body: Payload)
    | PutItem(id: string, body: Payload)
    | DeleteItem(id: string)

  /** A response body: `total` of a list is `|data|`, `filters` is present
      only on a freshly computed list. */
  datatype Body =
    | ListBody(data: seq<Item>, cached: bool, filters: Option<Filters>)
    | ItemBody(note: Option<string>, item: Item)
    | Done(message: string)
    | Failure(message: string, errors: seq<Error>)

  datatype Response = Response(status: nat, success: bool, body: Body)

  const INVALID_ID := "Invalid item ID format"
  const NOT_FOUND := "Item not found"
  const VALIDATION_FAILED := "Validation failed"
  const CREATED := "Item created successfully"
  const UPDATED := "Item updated successfully"
  const DELETED := "Item deleted successfully"

  function Fail(status: nat, message: string): Response {
    Response(status, false, Failure(message, []))
  }

  predicate ValidRouteId(id: string) {
    IsValidId(Some(Str(id)))
  }

  /** `GET /`: a live cache entry for the query is served as is (marked
      cached); otherwise the filtered list is computed from the store and
      stored under the query's key. */
  function HandleList(s: Server, query: Params, now: nat): (r: (Server, Response))
    ensures r.0.store == s.store
    ensures r.1.status == 200 && r.1.success && r.1.body.ListBody?
    ensures r.1.body.cached <==> IsLive(s.cache, ListKey(query), now)
    ensures r.1.body.cached ==> r.1.body.data == s.cache[ListKey(query)].data && r.0.cache == s.cache
    ensures !r.1.body.cached ==>
      r.1.body.data == ApplyFilters(s.store.items, FiltersOf(query)) &&
      r.1.body.filters == Some(FiltersOf(query)) &&
      ListKey(query) in r.0.cache && r.0.cache[ListKey(query)] == Entry(r.1.body.data, now)
    ensures forall k :: k in r.0.cache && k != ListKey(query) ==> k in s.cache && r.0.cache[k] == s.cache[k]
  {
    var key := CacheKey(LIST_PATH, Stringify(query));
    var (hit, c1) := GetCache(s.cache, key, now);
    if hit.Some? then
      (Server(s.store, c1), Response(200, true, ListBody(hit.value, true, None)))
    else
      var f := FiltersOf(query);
      var items := ApplyFilters(GetAll(s.store), f);
      (Server(s.store, SetCache(c1, key, items, now)), Response(200, true, ListBody(items, false, Some(f))))
  }

  /** `GET /:id`: 400 for a blank id, 404 for an unknown one, otherwise the
      item with that id. */
  function HandleGet(s: Server, id: string): (r: (Server, Response))
    ensures r.0 == s
    ensures r.1.status == 400 <==> !ValidRouteId(id)
    ensures r.1.status == 404 <==> ValidRouteId(id) && !HasId(s.store, id)
    ensures r.1.status == 200 <==> ValidRouteId(id) && HasId(s.store, id)
    ensures r.1.status == 200 ==> r.1.body.ItemBody? && r.1.body.item.id == id && r.1.body.item in s.store.items
  {
    if !IsValidId(Some(Str(id))) then (s, Fail(400, INVALID_ID))
    else
      match GetById(s.store, id)
      case None => (s, Fail(404, NOT_FOUND))
      case Some(item) => (s, Response(200, true, ItemBody(None, item)))
  }

  /** `POST /`: 400 with the validator's errors for a payload that fails
      full validation, otherwise 201 with the created item, and the cache is
      emptied. */
  function HandlePost(s: Server, body: Payload, now: nat, suffix: Base36Text): (r: (Server, Response))
    ensures r.1.status == 201 <==> Acceptable(body, true)
    ensures r.1.status != 201 ==>
      r.0 == s && r.1.status == 400 && r.1.body.Failure? &&
      r.1.body.errors == ValidateItemData(body, true).errors && |r.1.body.errors| > 0
    ensures r.1.status == 201 ==>
      r.0.cache == map[] && r.1.body.ItemBody? &&
      (r.0.store, r.1.body.item) == Create(s.store, body, now, suffix)
  {
    var validation := ValidateItemData(body, true);
    if !validation.isValid then
      (s, Response(400, false, Failure(VALIDATION_FAILED, validation.errors)))
    else
      var (store, item) := Create(s.store, body, now, suffix);
      (Server(store, Clear(s.cache)), Response(201, true, ItemBody(Some(CREATED), item)))
  }

  /** `PUT /:id`: the id is checked first, then the payload in partial mode,
      then the item is looked up; only a successful update empties the
      cache. */
  function HandlePut(s: Server, id: string, body: Payload, now: nat): (r: (Server, Response))
    ensures r.1.status == 400 <==> !ValidRouteId(id) || !Acceptable(body, false)
    ensures r.1.status == 404 <==> ValidRouteId(id) && Acceptable(body, false) && !HasId(s.store, id)
    ensures r.1.status == 200 <==> ValidRouteId(id) && Acceptable(body, false) && HasId(s.store, id)
    ensures r.1.status != 200 ==> r.0 == s
    ensures ValidRouteId(id) && r.1.status == 400 ==>
      r.1.body.Failure? && r.1.body.errors == ValidateItemData(body, false).errors
    ensures r.1.status == 200 ==>
      r.0.cache == map[] && r.1.body.ItemBody? &&
      (r.0.store, Some(r.1.body.item)) == Update(s.store, id, body, now)
  {
    if !IsValidId(Some(Str(id))) then (s, Fail(400, INVALID_ID))
    else
      var validation := ValidateItemData(body, false);
      if !validation.isValid then
        (s, Response(400, false, Failure(VALIDATION_FAILED, validation.errors)))
      else
        match Update(s.store, id, body, now)
        case (_, None) => (s, Fail(404, NOT_FOUND))
        case (store, Some(item)) => (Server(store, Clear(s.cache)), Response(200, true, ItemBody(Some(UPDATED), item)))
  }

  /** `DELETE /:id`: 400 for a blank id, 404 for an unknown one, otherwise
      the item is removed and the cache emptied. */
  function HandleDelete(s: Server, id: string): (r: (Server, Response))
    ensures r.1.status == 400 <==> !ValidRouteId(id)
    ensures r.1.status == 404 <==> ValidRouteId(id) && !HasId(s.store, id)
    ensures r.1.status == 200 <==> ValidRouteId(id) && HasId(s.store, id)
    ensures r.1.status != 200 ==> r.0 == s
    ensures r.1.status == 200 ==> r.0.cache == map[] && r.0.store == Delete(s.store, id).0
  {
    if !IsValidId(Some(Str(id))) then (s, Fail(400, INVALID_ID))
    else
      match Delete(s.store, id)
      case (_, false) => (s, Fail(404, NOT_FOUND))
      case (store, true) => (Server(store, Clear(s.cache)), Response(200, true, Done(DELETED)))
  }

  /** One request at time `now`; `suffix` stands for the random part of a
      generated SKU. */
  function Step(s: Server, req: Request, now: nat, suffix: Base36Text): (Server, Response) {
    match req
    case ListItems(query) => HandleList(s, query, now)
    case GetItem(id) => HandleGet(s, id)
    case PostItem(body) => HandlePost(s, body, now, suffix)
    case PutItem(id, body) => HandlePut(s, id, body, now)
    case DeleteItem(id) => HandleDelete(s, id)
  }

  // ---------------------------------------------------------------------
  // Invariants of the server state.

  /** Every cache entry is the list of its own query over the current store:
      the key reads back as a query and the data is that query's filtered
      list. */
  predicate Coherent(s: Server) {
    forall k :: k in s.cache ==>
      ReadListKey(k).Some? && s.cache[k].data == ApplyFilters(s.store.items, FiltersOf(ReadListKey(k).value))
  }

  predicate Good(s: Server) {
    Inv(s.store) && Coherent(s)
  }

  /** Because every write empties the cache, a list response, cached or
      not, always shows the current store. */
  lemma ListIsCurrent(s: Server, query: Params, now: nat)
    requires Coherent(s)
    ensures HandleList(s, query, now).1.body.data == ApplyFilters(s.store.items, FiltersOf(query))
  {
    var key := ListKey(query);
    if IsLive(s.cache, key, now) {
      ListKeyRoundTrip(query);
    }
  }

  lemma ListKeepsCoherent(s: Server, query: Params, now: nat)
    requires Coherent(s)
    ensures Coherent(HandleList(s, query, now).0)
  {
    var r := HandleList(s, query, now);
    ListKeyRoundTrip(query);
    forall k | k in r.0.cache
      ensures ReadListKey(k).Some? &&
        r.0.cache[k].data == ApplyFilters(r.0.store.items, FiltersOf(ReadListKey(k).value))
    {
      if k != ListKey(query) {
        assert k in s.cache;
      } else if r.1.body.cached {
        assert k in s.cache;
      }
    }
  }

  lemma PostKeepsGood(s: Server, body: Payload, now: nat, suffix: Base36Text)
    requires Good(s)
    ensures Good(HandlePost(s, body, now, suffix).0)
  {
    if Acceptable(body, true) {
      CreateKeepsInv(s.store, body, now, suffix);
    }
  }

  lemma PutKeepsGood(s: Server, id: string, body: Payload, now: nat)
    requires Good(s)
    ensures Good(HandlePut(s, id, body, now).0)
  {
    if ValidRouteId(id) && Acceptable(body, false) {
      UpdateKeepsInv(s.store, id, body, now);
    }
  }

  lemma DeleteKeepsGood(s: Server, id: string)
    requires Good(s)
    ensures Good(HandleDelete(s, id).0)
  {
    DeleteKeepsInv(s.store, id);
  }

  /** Every request keeps the store invariant and the cache coherent. */
  lemma StepKeepsGood(s: Server, req: Request, now: nat, suffix: Base36Text)
    requires Good(s)
    ensures Good(Step(s, req, now, suffix).0)
  {
    match req
    case ListItems(query) => ListKeepsCoherent(s, query, now);
    case GetItem(id) =>
    case PostItem(body) => PostKeepsGood(s, body, now, suffix);
    case PutItem(id, body) => PutKeepsGood(s, id, body, now);
    case DeleteItem(id) => DeleteKeepsGood(s, id);
  }

  /** The id counter never goes back, and moves exactly on a 201. */
  lemma StepCounter(s: Server, req: Request, now: nat, suffix: Base36Text)
    ensures var r := Step(s, req, now, suffix);
      r.0.store.nextId == (if r.1.status == 201 then s.store.nextId + 1 else s.store.nextId)
    ensures var r := Step(s, req, now, suffix);
      r.1.status == 201 ==> r.1.body.ItemBody? && r.1.body.item.id == NatToString(s.store.nextId)
  {
    match req
    case ListItems(query) =>
    case GetItem(id) =>
    case PostItem(body) =>
    case PutItem(id, body) =>
    case DeleteItem(id) =>
  }

  /** A successful write empties the cache, so the next list request, for
      any query and at any time, is computed afresh from the updated store. */
  lemma WriteThenListMisses(s: Server, req: Request, now: nat, suffix: Base36Text, query: Params, later: nat)
    requires !req.ListItems? && !req.GetItem?
    ensures var r := Step(s, req, now, suffix);
      var l := HandleList(r.0, query, later);
      (r.1.status == 200 || r.1.status == 201) ==>
        !l.1.body.cached && l.1.body.data == ApplyFilters(r.0.store.items, FiltersOf(query))
  {
  }

  /** A request that fails (any status other than 200 or 201) changes
      nothing on the server. */
  lemma FailuresChangeNothing(s: Server, req: Request, now: nat, suffix: Base36Text)
    ensures var r := Step(s, req, now, suffix);
      r.1.status != 200 && r.1.status != 201 ==> r.0 == s
  {
  }

  // ---------------------------------------------------------------------
  // Runs of requests.

  /** A request together with its clock reading and SKU randomness. */
  datatype Call = Call(req: Request, now: nat, suffix: Base36Text)

  function Run(s: Server, calls: seq<Call>): (r: (Server, seq<Response>))
    ensures |r.1| == |calls|
    decreases |calls|
  {
    if |calls| == 0 then (s, [])
    else
      var (s1, resp) := Step(s, calls[0].req, calls[0].now, calls[0].suffix);
      var (s2, rest) := Run(s1, calls[1..]);
      (s2, [resp] + rest)
  }

  /** The ids of the items created during a run, from its 201 responses. */
  function CreatedIds(rs: seq<Response>): seq<string> {
    if |rs| == 0 then []
    else if rs[0].status == 201 && rs[0].body.ItemBody? then [rs[0].body.item.id] + CreatedIds(rs[1..])
    else CreatedIds(rs[1..])
  }

  /** `ids` are canonical decimals, strictly increasing, within [lo, hi). */
  predicate FreshIds(ids: seq<string>, lo: nat, hi: nat) {
    && (forall i :: 0 <= i < |ids| ==>
          NatToString(DecimalValue(ids[i])) == ids[i] && lo <= DecimalValue(ids[i]) < hi)
    && (forall i, j :: 0 <= i < j < |ids| ==> DecimalValue(ids[i]) < DecimalValue(ids[j]))
  }

  /** Over any run the invariants hold at the end, and the ids handed out
      are fresh: drawn in increasing order from the counter values the run
      passes through, so never an id that existed at the start, even one
      deleted since. */
  lemma {:induction false} RunIssuesFreshIds(s: Server, calls: seq<Call>)
    requires Good(s)
    ensures var r := Run(s, calls);
      Good(r.0) && s.store.nextId <= r.0.store.nextId &&
      FreshIds(CreatedIds(r.1), s.store.nextId, r.0.store.nextId)
    decreases |calls|
  {
    if |calls| > 0 {
      var c := calls[0];
      var (s1, resp) := Step(s, c.req, c.now, c.suffix);
      StepKeepsGood(s, c.req, c.now, c.suffix);
      StepCounter(s, c.req, c.now, c.suffix);
      RunIssuesFreshIds(s1, calls[1..]);
      var (s2, rest) := Run(s1, calls[1..]);
      var rs := [resp] + rest;
      assert Run(s, calls) == (s2, rs);
      CreatedIdsCons(resp, rest);
      if resp.status == 201 && resp.body.ItemBody? {
        DecimalRoundTrip(s.store.nextId);
        FreshIdsCons(resp.body.item.id, CreatedIds(rest), s.store.nextId, s2.store.nextId);
      } else {
        FreshIdsWiden(CreatedIds(rest), s.store.nextId, s1.store.nextId, s2.store.nextId);
      }
    }
  }

  lemma CreatedIdsCons(r: Response, rest: seq<Response>)
    ensures CreatedIds([r] + rest) ==
      (if r.status == 201 && r.body.ItemBody? then [r.body.item.id] else []) + CreatedIds(rest)
  {
    assert ([r] + rest)[1..] == rest;
  }

  lemma FreshIdsCons(id: string, ids: seq<string>, lo: nat, hi: nat)
    requires NatToString(DecimalValue(id)) == id && DecimalValue(id) == lo
    requires lo < hi && FreshIds(ids, lo + 1, hi)
    ensures FreshIds([id] + ids, lo, hi)
  {
  }

  lemma FreshIdsWiden(ids: seq<string>, lo: nat, mid: nat, hi: nat)
    requires lo <= mid && FreshIds(ids, mid, hi)
    ensures FreshIds(ids, lo, hi)
  {
  }

  /** Ids created in a run are pairwise distinct and differ from every id in
      the store the run started from. */
  lemma RunIdsNeverReused(s: Server, calls: seq<Call>)
    requires Good(s)
    ensures var ids := CreatedIds(Run(s, calls).1);
      (forall i, j :: 0 <= i < j < |ids| ==> ids[i] != ids[j]) &&
      (forall i, k :: 0 <= i < |ids| && 0 <= k < |s.store.items| ==> ids[i] != s.store.items[k].id)
  {
    RunIssuesFreshIds(s, calls);
    var r := Run(s, calls);
    var ids := CreatedIds(r.1);
    assert FreshIds(ids, s.store.nextId, r.0.store.nextId);
    forall i, j | 0 <= i < j < |ids|
      ensures ids[i] != ids[j]
    {
      assert DecimalValue(ids[i]) < DecimalValue(ids[j]);
    }
    forall i, k | 0 <= i < |ids| && 0 <= k < |s.store.items|
      ensures ids[i] != s.store.items[k].id
    {
      assert s.store.nextId <= DecimalValue(ids[i]);
      assert IssuedBelow(s.store.items[k].id, s.store.nextId);
    }
  }
}

=== FILE: seqs.dfy ===
/** Order-preserving filtering and the subsequence relation, the two notions
    the list endpoint, the low-stock report and the validator are stated in. */
module Seqs {

  /** `Array.prototype.filter`: the elements of `s` satisfying `p`, in order. */
  function Filter<T(==)>(s: seq<T>, p: T -> bool): (r: seq<T>)
    ensures |r| <= |s|
    ensures forall i :: 0 <= i < |r| ==> p(r[i]) && r[i] in s
    ensures forall i :: 0 <= i < |s| && p(s[i]) ==> s[i] in r
  {
    if |s| == 0 then []
    else if p(s[0]) then [s[0]] + Filter(s[1..], p)
    else Filter(s[1..], p)
  }

  /** `a` can be obtained from `b` by deleting elements (order is kept). */
  predicate SubseqOf<T(==)>(a: seq<T>, b: seq<T>)
    decreases |b|
  {
    if |a| == 0 then true
    else if |b| == 0 then false
    else (a[0] == b[0] && SubseqOf(a[1..], b[1..])) || SubseqOf(a, b[1..])
  }

  lemma {:induction false} SubseqOfRefl<T>(a: seq<T>)
    ensures SubseqOf(a, a)
    decreases |a|
  {
    if |a| > 0 {
      SubseqOfRefl(a[1..]);
    }
  }

  /** Appending the same element to both sides keeps the relation. */
  lemma {:induction false} SubseqOfConsBoth<T>(x: T, a: seq<T>, b: seq<T>)
    requires SubseqOf(a, b)
    ensures SubseqOf([x] + a, [x] + b)
  {
    assert ([x] + a)[1..] == a;
    assert ([x] + b)[1..] == b;
  }

  /** Dropping nothing from `b` but adding a fresh element keeps the relation. */
  lemma {:induction false} SubseqOfConsRight<T>(x: T, a: seq<T>, b: seq<T>)
    requires SubseqOf(a, b)
    ensures SubseqOf(a, [x] + b)
  {
    assert ([x] + b)[1..] == b;
  }

  /** Subsequences of the two halves of a concatenation concatenate. */
  lemma {:induction false} SubseqOfConcat<T>(a1: seq<T>, b1: seq<T>, a2: seq<T>, b2: seq<T>)
    requires SubseqOf(a1, b1) && SubseqOf(a2, b2)
    ensures SubseqOf(a1 + a2, b1 + b2)
    decreases |b1|, |a1|
  {
    if |a1| == 0 {
      assert a1 + a2 == a2;
      SubseqOfAppendLeft(a2, b2, b1);
    } else {
      assert |b1| > 0;
      assert (b1 + b2)[0] == b1[0];
      assert (b1 + b2)[1..] == b1[1..] + b2;
      if a1[0] == b1[0] && SubseqOf(a1[1..], b1[1..]) {
        SubseqOfConcat(a1[1..], b1[1..], a2, b2);
        assert (a1 + a2)[0] == a1[0];
        assert (a1 + a2)[1..] == a1[1..] + a2;
      } else {
        SubseqOfConcat(a1, b1[1..], a2, b2);
      }
    }
  }

  /** Prepending a whole sequence on the right keeps the relation. */
  lemma {:induction false} SubseqOfAppendLeft<T>(a: seq<T>, b: seq<T>, c: seq<T>)
    requires SubseqOf(a, b)
    ensures SubseqOf(a, c + b)
    decreases |c|
  {
    if |c| > 0 {
      SubseqOfAppendLeft(a, b, c[1..]);
      assert (c + b)[1..] == c[1..] + b;
      if |a| > 0 {
        assert SubseqOf(a, (c + b)[1..]);
      }
    } else {
      assert c + b == b;
    }
  }

  lemma SplitAt<T>(s: seq<T>, i: nat)
    requires i < |s|
    ensures s[..i] + ([s[i]] + s[i + 1..]) == s
  {
  }

  /** Deleting one element leaves a subsequence. */
  lemma SubseqOfRemove<T>(a: seq<T>, x: T, b: seq<T>)
    ensures SubseqOf(a + b, a + ([x] + b))
  {
    SubseqOfRefl(a);
    SubseqOfRefl(b);
    SubseqOfConsRight(x, b, b);
    SubseqOfConcat(a, a, b, [x] + b);
  }

  /** Every element of a subsequence occurs in the original. */
  lemma {:induction false} SubseqOfMembers<T>(a: seq<T>, b: seq<T>, x: T)
    requires SubseqOf(a, b) && x in a
    ensures x in b
    decreases |b|
  {
    assert |b| > 0;
    if a[0] == b[0] && SubseqOf(a[1..], b[1..]) {
      if x != a[0] {
        assert x in a[1..];
        SubseqOfMembers(a[1..], b[1..], x);
      }
    } else {
      SubseqOfMembers(a, b[1..], x);
    }
  }

  /** Filtering only deletes elements: the result is an order-preserving
      subsequence of the input. */
  lemma {:induction false} FilterIsSubseq<T>(s: seq<T>, p: T -> bool)
    ensures SubseqOf(Filter(s, p), s)
    decreases |s|
  {
    if |s| > 0 {
      FilterIsSubseq(s[1..], p);
      if p(s[0]) {
        SubseqOfConsBoth(s[0], Filter(s[1..], p), s[1..]);
        assert [s[0]] + s[1..] == s;
      } else {
        SubseqOfConsRight(s[0], Filter(s[1..], p), s[1..]);
        assert [s[0]] + s[1..] == s;
      }
    }
  }

  /** Filtering keeps every copy of an element that passes and no copy of
      one that fails. */
  lemma {:induction false} FilterMultiset<T>(s: seq<T>, p: T -> bool)
    ensures forall x :: multiset(Filter(s, p))[x] == if p(x) then multiset(s)[x] else 0
    decreases |s|
  {
    if |s| > 0 {
      FilterMultiset(s[1..], p);
      assert s == [s[0]] + s[1..];
    }
  }

  /** A filter whose predicate holds everywhere on `s` returns `s`. */
  lemma {:induction false} FilterKeepsAll<T>(s: seq<T>, p: T -> bool)
    requires forall i :: 0 <= i < |s| ==> p(s[i])
    ensures Filter(s, p) == s
    decreases |s|
  {
    if |s| > 0 {
      FilterKeepsAll(s[1..], p);
      assert [s[0]] + s[1..] == s;
    }
  }

  /** Two filters in a row are one filter by the conjunction. */
  lemma {:induction false} FilterFilter<T>(s: seq<T>, p: T -> bool, q: T -> bool, both: T -> bool)
    requires forall x :: both(x) == (p(x) && q(x))
    ensures Filter(Filter(s, p), q) == Filter(s, both)
    decreases |s|
  {
    if |s| > 0 {
      FilterFilter(s[1..], p, q, both);
      if p(s[0]) {
        assert Filter(s, p) == [s[0]] + Filter(s[1..], p);
        assert Filter(s, p)[1..] == Filter(s[1..], p);
      }
    }
  }

  lemma ConcatAssoc<T>(a: seq<T>, b: seq<T>, c: seq<T>)
    ensures (a + b) + c == a + (b + c)
  {
  }

  lemma FilterCons<T>(x: T, s: seq<T>, p: T -> bool)
    ensures Filter([x] + s, p) == (if p(x) then [x] else []) + Filter(s, p)
  {
    assert ([x] + s)[0] == x;
    assert ([x] + s)[1..] == s;
  }

  /** Filtering distributes over concatenation. */
  lemma {:induction false} FilterConcat<T>(a: seq<T>, b: seq<T>, p: T -> bool)
    ensures Filter(a + b, p) == Filter(a, p) + Filter(b, p)
    decreases |a|
  {
    if |a| == 0 {
      assert a + b == b;
    } else {
      var x, rest := a[0], a[1..];
      assert a == [x] + rest;
      assert a + b == [x] + (rest + b);
      FilterConcat(rest, b, p);
      FilterCons(x, rest + b, p);
      FilterCons(x, rest, p);
      ConcatAssoc(if p(x) then [x] else [], Filter(rest, p), Filter(b, p));
    }
  }
}

=== FILE: stats.dfy ===
/** `getStats` of the item store: item count, total stock value, the
    low-stock items and the per-category breakdown. */
module ItemStats {
  import opened Validator
  import opened JsText
  import opened ItemStore
  import opened Seqs

  datatype CategoryStat = CategoryStat(category: string, count: nat, totalValue: real)

  datatype Stats = Stats(
    totalItems: nat,
    totalValue: real,
    categories: seq<CategoryStat>,
    lowStock: seq<Item>)

  const LOW_STOCK_THRESHOLD := 10

  /** The stock value of one item, `price * quantity`. */
  function StockValue(it: Item): real {
    it.price * it.quantity as real
  }

  predicate IsLowStock(it: Item) {
    it.quantity < LOW_STOCK_THRESHOLD
  }

  /** Σ price × quantity, accumulated in array order like `reduce`. */
  function TotalValue(items: seq<Item>): real {
    if |items| == 0 then 0.0
    else TotalValue(items[..|items| - 1]) + StockValue(items[|items| - 1])
  }

  /** How many items have category `c`. */
  function CountIn(items: seq<Item>, c: string): nat {
    if |items| == 0 then 0
    else CountIn(items[..|items| - 1], c) + (if items[|items| - 1].category == c then 1 else 0)
  }

  /** The stock value of the items with category `c`. */
  function ValueIn(items: seq<Item>, c: string): real {
    if |items| == 0 then 0.0
    else ValueIn(items[..|items| - 1], c) + (if items[|items| - 1].category == c then StockValue(items[|items| - 1]) else 0.0)
  }

  /** Position of the entry for `c`, or -1. */
  function FindCategory(b: seq<CategoryStat>, c: string): (r: int)
    ensures -1 <= r < |b|
    ensures r >= 0 ==> b[r].category == c
    ensures r == -1 <==> forall k :: 0 <= k < |b| ==> b[k].category != c
  {
    if |b| == 0 then -1
    else if b[|b| - 1].category == c then |b| - 1
    else FindCategory(b[..|b| - 1], c)
  }

  /** One step of the `forEach`: create the entry on first sight of the
      category, then count the item and add its value. */
  function Tally(b: seq<CategoryStat>, it: Item): seq<CategoryStat> {
    var k := FindCategory(b, it.category);
    if k == -1 then b + [CategoryStat(it.category, 1, StockValue(it))]
    else b[k := CategoryStat(it.category, b[k].count + 1, b[k].totalValue + StockValue(it))]
  }

  /** The per-category breakdown, entries in order of first encounter. */
  function Breakdown(items: seq<Item>): seq<CategoryStat> {
    if |items| == 0 then [] else Tally(Breakdown(items[..|items| - 1]), items[|items| - 1])
  }

  predicate DistinctCategories(b: seq<CategoryStat>) {
    forall j, k :: 0 <= j < k < |b| ==> b[j].category != b[k].category
  }

  function SumCounts(b: seq<CategoryStat>): nat {
    if |b| == 0 then 0 else SumCounts(b[..|b| - 1]) + b[|b| - 1].count
  }

  function SumValues(b: seq<CategoryStat>): real {
    if |b| == 0 then 0.0 else SumValues(b[..|b| - 1]) + b[|b| - 1].totalValue
  }

  /** Raising one entry's value by `v` raises the sum by `v`. */
  lemma {:induction false} SumValuesBump(b: seq<CategoryStat>, k: nat, e: CategoryStat, v: real)
    requires k < |b| && e.totalValue == b[k].totalValue + v
    ensures SumValues(b[k := e]) == SumValues(b) + v
  {
    var b' := b[k := e];
    assert b'[..|b'| - 1] == if k == |b| - 1 then b[..|b| - 1] else b[..|b| - 1][k := e];
    if k < |b| - 1 {
      SumValuesBump(b[..|b| - 1], k, e, v);
    }
  }

  /** Raising one entry's count by one raises the sum by one. */
  lemma {:induction false} SumCountsBump(b: seq<CategoryStat>, k: nat, e: CategoryStat)
    requires k < |b| && e.count == b[k].count + 1
    ensures SumCounts(b[k := e]) == SumCounts(b) + 1
  {
    var b' := b[k := e];
    assert b'[..|b'| - 1] == if k == |b| - 1 then b[..|b| - 1] else b[..|b| - 1][k := e];
    if k < |b| - 1 {
      SumCountsBump(b[..|b| - 1], k, e);
    }
  }

  lemma CountsOfSnoc(items: seq<Item>, it: Item, c: string)
    ensures CountIn(items + [it], c) == CountIn(items, c) + (if it.category == c then 1 else 0)
    ensures ValueIn(items + [it], c) == ValueIn(items, c) + (if it.category == c then StockValue(it) else 0.0)
  {
    assert (items + [it])[..|items|] == items;
  }

  /** A category has items exactly when its count is positive. */
  lemma {:induction false} CountPositiveIff(items: seq<Item>, c: string)
    ensures CountIn(items, c) > 0 <==> exists i :: 0 <= i < |items| && items[i].category == c
  {
    if |items| > 0 {
      var init := items[..|items| - 1];
      CountPositiveIff(init, c);
      if exists i :: 0 <= i < |items| && items[i].category == c {
        var i :| 0 <= i < |items| && items[i].category == c;
        if i < |items| - 1 {
          assert init[i] == items[i];
        }
      }
      if exists i :: 0 <= i < |init| && init[i].category == c {
        var i :| 0 <= i < |init| && init[i].category == c;
        assert items[i] == init[i];
      }
    }
  }

  /** Each entry holds its category's item count (positive) and value. */
  ghost predicate EntriesExact(b: seq<CategoryStat>, items: seq<Item>) {
    forall k :: 0 <= k < |b| ==>
      b[k].count == CountIn(items, b[k].category) > 0 && b[k].totalValue == ValueIn(items, b[k].category)
  }

  /** Every category that occurs has an entry. */
  ghost predicate Covers(b: seq<CategoryStat>, items: seq<Item>) {
    forall c :: CountIn(items, c) > 0 ==> FindCategory(b, c) >= 0
  }

  /** `b` is the exact breakdown of `items`: one entry per category that
      occurs, holding that category's item count and stock value; the counts
      add up to the number of items and the values to the total value. */
  ghost predicate Exact(b: seq<CategoryStat>, items: seq<Item>) {
    && DistinctCategories(b)
    && EntriesExact(b, items)
    && Covers(b, items)
    && SumCounts(b) == |items|
    && SumValues(b) == TotalValue(items)
  }

  lemma CountsOfSnocAll(items: seq<Item>, it: Item)
    ensures forall c :: CountIn(items + [it], c) == CountIn(items, c) + (if it.category == c then 1 else 0)
    ensures forall c :: ValueIn(items + [it], c) == ValueIn(items, c) + (if it.category == c then StockValue(it) else 0.0)
  {
    forall c {
      CountsOfSnoc(items, it, c);
    }
  }

  /** The entry appended for a new category is exact, and the old ones stay
      exact. */
  lemma NewCategoryEntries(b: seq<CategoryStat>, items: seq<Item>, it: Item)
    requires EntriesExact(b, items) && FindCategory(b, it.category) == -1 && Covers(b, items)
    ensures EntriesExact(Tally(b, it), items + [it])
  {
    var c0 := it.category;
    var b' := Tally(b, it);
    var items' := items + [it];
    CountsOfSnocAll(items, it);
    assert CountIn(items, c0) == 0;
    ZeroCountZeroValue(items, c0);
    forall k | 0 <= k < |b'|
      ensures b'[k].count == CountIn(items', b'[k].category) > 0
      ensures b'[k].totalValue == ValueIn(items', b'[k].category)
    {
      if k < |b| {
        assert b'[k] == b[k] && b[k].category != c0;
      }
    }
  }

  lemma NewCategoryCovers(b: seq<CategoryStat>, items: seq<Item>, it: Item)
    requires Covers(b, items) && FindCategory(b, it.category) == -1
    ensures Covers(Tally(b, it), items + [it])
  {
    var b' := Tally(b, it);
    var items' := items + [it];
    CountsOfSnocAll(items, it);
    forall c | CountIn(items', c) > 0
      ensures FindCategory(b', c) >= 0
    {
      if c != it.category {
        var j := FindCategory(b, c);
        assert b'[j] == b[j];
      } else {
        assert b'[|b'| - 1].category == c;
      }
    }
  }

  /** Tallying an item of a category not seen yet appends its entry. */
  lemma TallyNewCategory(b: seq<CategoryStat>, items: seq<Item>, it: Item)
    requires Exact(b, items) && FindCategory(b, it.category) == -1
    ensures Exact(Tally(b, it), items + [it])
  {
    var e := CategoryStat(it.category, 1, StockValue(it));
    assert Tally(b, it) == b + [e];
    NewCategoryEntries(b, items, it);
    NewCategoryCovers(b, items, it);
    AppendSums(b, e);
    TotalValueSnoc(items, it);
  }

  /** No items in a category means no stock value in it. */
  lemma {:induction false} ZeroCountZeroValue(items: seq<Item>, c: string)
    requires CountIn(items, c) == 0
    ensures ValueIn(items, c) == 0.0
  {
    if |items| > 0 {
      ZeroCountZeroValue(items[..|items| - 1], c);
    }
  }

  lemma KnownCategoryEntries(b: seq<CategoryStat>, items: seq<Item>, it: Item)
    requires EntriesExact(b, items) && DistinctCategories(b) && FindCategory(b, it.category) >= 0
    ensures EntriesExact(Tally(b, it), items + [it])
  {
    var c0 := it.category;
    var b' := Tally(b, it);
    var items' := items + [it];
    var k0 := FindCategory(b, c0);
    CountsOfSnocAll(items, it);
    forall k | 0 <= k < |b'|
      ensures b'[k].count == CountIn(items', b'[k].category) > 0
      ensures b'[k].totalValue == ValueIn(items', b'[k].category)
    {
      if k != k0 {
        assert b'[k] == b[k] && b[k].category != c0;
      }
    }
  }

  lemma KnownCategoryCovers(b: seq<CategoryStat>, items: seq<Item>, it: Item)
    requires Covers(b, items) && FindCategory(b, it.category) >= 0
    ensures Covers(Tally(b, it), items + [it])
  {
    var b' := Tally(b, it);
    var items' := items + [it];
    var k0 := FindCategory(b, it.category);
    CountsOfSnocAll(items, it);
    forall c | CountIn(items', c) > 0
      ensures FindCategory(b', c) >= 0
    {
      if c != it.category {
        var j := FindCategory(b, c);
        assert b'[j].category == c;
      } else {
        assert b'[k0].category == c;
      }
    }
  }

  lemma KnownCategoryDistinct(b: seq<CategoryStat>, it: Item)
    requires DistinctCategories(b) && FindCategory(b, it.category) >= 0
    ensures DistinctCategories(Tally(b, it))
  {
    var b' := Tally(b, it);
    assert forall k :: 0 <= k < |b'| ==> b'[k].category == b[k].category;
  }

  lemma KnownCategorySums(b: seq<CategoryStat>, items: seq<Item>, it: Item)
    requires SumCounts(b) == |items| && SumValues(b) == TotalValue(items)
    requires FindCategory(b, it.category) >= 0
    ensures SumCounts(Tally(b, it)) == |items + [it]|
    ensures SumValues(Tally(b, it)) == TotalValue(items + [it])
  {
    var k0 := FindCategory(b, it.category);
    var e := CategoryStat(it.category, b[k0].count + 1, b[k0].totalValue + StockValue(it));
    assert Tally(b, it) == b[k0 := e];
    SumCountsBump(b, k0, e);
    SumValuesBump(b, k0, e, StockValue(it));
    TotalValueSnoc(items, it);
  }

  /** Tallying an item of a known category bumps that entry only. */
  lemma TallyKnownCategory(b: seq<CategoryStat>, items: seq<Item>, it: Item)
    requires Exact(b, items) && FindCategory(b, it.category) >= 0
    ensures Exact(Tally(b, it), items + [it])
  {
    KnownCategoryDistinct(b, it);
    KnownCategoryEntries(b, items, it);
    KnownCategoryCovers(b, items, it);
    KnownCategorySums(b, items, it);
  }

  lemma AppendSums(b: seq<CategoryStat>, e: CategoryStat)
    ensures SumCounts(b + [e]) == SumCounts(b) + e.count
    ensures SumValues(b + [e]) == SumValues(b) + e.totalValue
  {
    assert (b + [e])[..|b|] == b;
  }

  lemma TotalValueSnoc(items: seq<Item>, it: Item)
    ensures TotalValue(items + [it]) == TotalValue(items) + StockValue(it)
  {
    assert (items + [it])[..|items|] == items;
  }

  /** The breakdown is exact (see `Exact`). */
  lemma {:induction false} BreakdownCorrect(items: seq<Item>)
    ensures Exact(Breakdown(items), items)
  {
    if |items| > 0 {
      var init := items[..|items| - 1];
      var it := items[|items| - 1];
      assert items == init + [it];
      BreakdownCorrect(init);
      if FindCategory(Breakdown(init), it.category) == -1 {
        TallyNewCategory(Breakdown(init), init, it);
      } else {
        TallyKnownCategory(Breakdown(init), init, it);
      }
    }
  }

  // ---------------------------------------------------------------------
  // Entry order: `stats.categories` gains a key the first time a category is
  // met, and a plain object enumerates such keys in insertion order.

  /** The position of the first item with category `c`, or `|items|` when
      there is none. */
  function FirstOf(items: seq<Item>, c: string): (r: nat)
    ensures r <= |items|
    ensures r < |items| ==> items[r].category == c
    ensures forall i :: 0 <= i < r ==> items[i].category != c
  {
    if |items| == 0 then 0
    else
      var f := FirstOf(items[..|items| - 1], c);
      if f < |items| - 1 then f
      else if items[|items| - 1].category == c then |items| - 1
      else |items|
  }

  /** Entries are listed in the order their categories first occur. */
  ghost predicate FirstEncounterOrder(b: seq<CategoryStat>, items: seq<Item>) {
    forall j, k :: 0 <= j < k < |b| ==> FirstOf(items, b[j].category) < FirstOf(items, b[k].category)
  }

  lemma FirstOfSnoc(items: seq<Item>, it: Item, c: string)
    ensures FirstOf(items + [it], c) ==
      if FirstOf(items, c) < |items| then FirstOf(items, c)
      else if it.category == c then |items| else |items| + 1
  {
    assert (items + [it])[..|items|] == items;
  }

  /** Every entry names a category that occurs. */
  ghost predicate EntriesOccur(b: seq<CategoryStat>, items: seq<Item>) {
    forall k :: 0 <= k < |b| ==> FirstOf(items, b[k].category) < |items|
  }

  /** Categories met before the last item keep their first position. */
  lemma FirstOfKept(items: seq<Item>, it: Item)
    ensures forall c :: FirstOf(items, c) < |items| ==> FirstOf(items + [it], c) == FirstOf(items, c)
  {
    forall c | FirstOf(items, c) < |items|
      ensures FirstOf(items + [it], c) == FirstOf(items, c)
    {
      FirstOfSnoc(items, it, c);
    }
  }

  /** Bumping a known entry keeps the order. */
  lemma TallyKnownKeepsOrder(b: seq<CategoryStat>, items: seq<Item>, it: Item)
    requires EntriesOccur(b, items) && FirstEncounterOrder(b, items)
    requires FindCategory(b, it.category) >= 0
    ensures EntriesOccur(Tally(b, it), items + [it])
    ensures FirstEncounterOrder(Tally(b, it), items + [it])
  {
    var b' := Tally(b, it);
    FirstOfKept(items, it);
    assert |b'| == |b|;
    assert forall k :: 0 <= k < |b'| ==> b'[k].category == b[k].category;
  }

  /** Appending the entry of a category met for the first time keeps the
      order, since it occurs after all the others. */
  lemma TallyNewKeepsOrder(b: seq<CategoryStat>, items: seq<Item>, it: Item)
    requires EntriesOccur(b, items) && FirstEncounterOrder(b, items)
    requires FindCategory(b, it.category) == -1 && FirstOf(items, it.category) == |items|
    ensures EntriesOccur(Tally(b, it), items + [it])
    ensures FirstEncounterOrder(Tally(b, it), items + [it])
  {
    var items' := items + [it];
    var b' := Tally(b, it);
    assert b' == b + [CategoryStat(it.category, 1, StockValue(it))];
    FirstOfKept(items, it);
    FirstOfSnoc(items, it, it.category);
    assert forall k :: 0 <= k < |b| ==> b'[k] == b[k] && FirstOf(items', b'[k].category) < |items|;
    assert FirstOf(items', b'[|b|].category) == |items|;
  }

  /** The breakdown's entries follow first encounter, and each names a
      category that occurs. */
  lemma {:induction false} BreakdownOrdered(items: seq<Item>)
    ensures EntriesOccur(Breakdown(items), items)
    ensures FirstEncounterOrder(Breakdown(items), items)
  {
    if |items| > 0 {
      var init := items[..|items| - 1];
      var it := items[|items| - 1];
      assert items == init + [it];
      var b := Breakdown(init);
      BreakdownOrdered(init);
      if FindCategory(b, it.category) == -1 {
        FirstOfNewCategory(init, it, b);
        TallyNewKeepsOrder(b, init, it);
      } else {
        TallyKnownKeepsOrder(b, init, it);
      }
    }
  }

  /** A category without an entry in the breakdown does not occur yet. */
  lemma FirstOfNewCategory(init: seq<Item>, it: Item, b: seq<CategoryStat>)
    requires b == Breakdown(init) && FindCategory(b, it.category) == -1
    ensures FirstOf(init, it.category) == |init|
  {
    BreakdownCorrect(init);
    if FirstOf(init, it.category) < |init| {
      CountPositiveIff(init, it.category);
      assert false;
    }
  }

  /** `getStats`: the per-category breakdown is exact, so its counts add up
      to `totalItems` and its values to `totalValue`; `lowStock` is exactly the
      items with quantity below 10, in order. */
  function GetStats(s: Store): (r: Stats)
    ensures r.totalItems == |s.items|
    ensures Exact(r.categories, s.items)
    ensures SumCounts(r.categories) == r.totalItems
    ensures SumValues(r.categories) == r.totalValue
    ensures FirstEncounterOrder(r.categories, s.items)
    ensures SubseqOf(r.lowStock, s.items)
    ensures forall i :: 0 <= i < |r.lowStock| ==> r.lowStock[i].quantity < 10
    ensures forall i :: 0 <= i < |s.items| && s.items[i].quantity < 10 ==> s.items[i] in r.lowStock
    ensures forall it :: multiset(r.lowStock)[it] == if it.quantity < 10 then multiset(s.items)[it] else 0
  {
    BreakdownCorrect(s.items);
    BreakdownOrdered(s.items);
    LowStockCorrect(s.items);
    Stats(|s.items|, TotalValue(s.items), Breakdown(s.items), Filter(s.items, IsLowStock))
  }

  /** The low-stock report keeps exactly the items below the threshold, in
      order and with their multiplicities. */
  lemma LowStockCorrect(items: seq<Item>)
    ensures SubseqOf(Filter(items, IsLowStock), items)
    ensures forall i :: 0 <= i < |Filter(items, IsLowStock)| ==> Filter(items, IsLowStock)[i].quantity < 10
    ensures forall i :: 0 <= i < |items| && items[i].quantity < 10 ==> items[i] in Filter(items, IsLowStock)
    ensures forall it :: multiset(Filter(items, IsLowStock))[it] == if it.quantity < 10 then multiset(items)[it] else 0
  {
    FilterIsSubseq(items, IsLowStock);
    FilterMultiset(items, IsLowStock);
  }

  /** A category has an entry in the statistics exactly when some item in
      the store has it. */
  lemma CategoryListedIff(s: Store, c: string)
    ensures FindCategory(GetStats(s).categories, c) >= 0
            <==> exists i :: 0 <= i < |s.items| && s.items[i].category == c
  {
    var b := GetStats(s).categories;
    CountPositiveIff(s.items, c);
    if FindCategory(b, c) >= 0 {
      var k := FindCategory(b, c);
      assert b[k].count == CountIn(s.items, b[k].category) > 0;
    }
  }

  /** After `create` the statistics count one more item, add its stock value
      to the total and to its category, and list it as low stock exactly
      when its quantity is below the threshold (at the end, since it is the
      newest item). */
  lemma StatsAfterCreate(s: Store, data: Payload, now: nat, suffix: Base36Text)
    requires Acceptable(data, true)
    ensures var (s', it) := Create(s, data, now, suffix);
      var before, after := GetStats(s), GetStats(s');
      && after.totalItems == before.totalItems + 1
      && after.totalValue == before.totalValue + StockValue(it)
      && after.lowStock == before.lowStock + (if IsLowStock(it) then [it] else [])
      && CountIn(s'.items, it.category) == CountIn(s.items, it.category) + 1
      && ValueIn(s'.items, it.category) == ValueIn(s.items, it.category) + StockValue(it)
  {
    var (s', it) := Create(s, data, now, suffix);
    assert s'.items == s.items + [it];
    TotalValueSnoc(s.items, it);
    CountsOfSnoc(s.items, it, it.category);
    FilterConcat(s.items, [it], IsLowStock);
    assert [it][1..] == [];
    assert Filter(s'.items, IsLowStock) == Filter(s.items, IsLowStock) + (if IsLowStock(it) then [it] else []);
  }

  // ---------------------------------------------------------------------
  // The breakdown as the source writes it: `stats.categories` is a plain
  // object, so a category spelled like a member of `Object.prototype` finds
  // that inherited (truthy) member, is never given its own entry, and the
  // `count++` lands on the inherited member instead.

  /** The names every plain object inherits from `Object.prototype`. */
  predicate IsInheritedName(c: string) {
    c in {"constructor", "__proto__", "__defineGetter__", "__defineSetter__",
          "__lookupGetter__", "__lookupSetter__", "hasOwnProperty", "isPrototypeOf",
          "propertyIsEnumerable", "toLocaleString", "toString", "valueOf"}
  }

  function TallyAsWritten(b: seq<CategoryStat>, it: Item): seq<CategoryStat> {
    if IsInheritedName(it.category) then b else Tally(b, it)
  }

  function BreakdownAsWritten(items: seq<Item>): seq<CategoryStat> {
    if |items| == 0 then []
    else TallyAsWritten(BreakdownAsWritten(items[..|items| - 1]), items[|items| - 1])
  }

  /** One item in category "constructor" (accepted by the validator, which
      only asks for a non-blank string) is missing from the breakdown the
      source builds: the counts add up to 0 while `totalItems` is 1. The
      corrected `Breakdown` counts it. */
  lemma InheritedCategoryIsDropped(it: Item)
    requires it.category == "constructor"
    ensures BreakdownAsWritten([it]) == []
    ensures SumCounts(BreakdownAsWritten([it])) == 0 != |[it]|
    ensures SumCounts(Breakdown([it])) == 1
  {
    assert [it][..0] == [];
    BreakdownCorrect([it]);
  }

  /** Where no category is spelled like an inherited member, the breakdown
      as written and the corrected one coincide, so `GetStats` is then
      exactly what the source returns. */
  lemma {:induction false} AsWrittenAgreesWithoutInheritedNames(items: seq<Item>)
    requires forall i :: 0 <= i < |items| ==> !IsInheritedName(items[i].category)
    ensures BreakdownAsWritten(items) == Breakdown(items)
  {
    if |items| > 0 {
      var init := items[..|items| - 1];
      assert forall i :: 0 <= i < |init| ==> init[i] == items[i];
      AsWrittenAgreesWithoutInheritedNames(init);
    }
  }
}

=== FILE: validator.dfy ===
/** The payload validator of the backend: id format, item payloads in full
    (create) and partial (update) mode, and search queries. All pure. */
module Validator {
  import opened Wrappers
  import opened JsText
  import opened JsValue
  import opened Seqs

  const MAX_NAME_LENGTH := 100
  const MAX_DESCRIPTION_LENGTH := 500
  const MAX_SKU_LENGTH := 50
  const MAX_AMOUNT := 999999
  const MAX_QUERY_LENGTH := 100

  /** An item payload as it arrives in a request body: each documented key is
      either absent (`None`, JavaScript's `undefined`) or holds a JSON value. */
  datatype Payload = Payload(
    name: Option<Value>,
    description: Option<Value>,
    category: Option<Value>,
    price: Option<Value>,
    quantity: Option<Value>,
    sku: Option<Value>)

  const EmptyPayload := Payload(None, None, None, None, None, None)

  /** The validator's error messages; `Message` gives the exact text. */
  datatype Error =
    | NameRequired | NameTooLong
    | CategoryRequired
    | PriceInvalid | PriceTooHigh
    | QuantityInvalid | QuantityTooHigh
    | DescriptionNotString | DescriptionTooLong
    | SkuNotString | SkuTooLong | SkuBadChars
  {
    /** The position of the field the error is about, in checking order:
        name, category, price, quantity, description, sku. */
    function Field(): (f: nat)
      ensures f < 6
    {
      match this
      case NameRequired | NameTooLong => 0
      case CategoryRequired => 1
      case PriceInvalid | PriceTooHigh => 2
      case QuantityInvalid | QuantityTooHigh => 3
      case DescriptionNotString | DescriptionTooLong => 4
      case SkuNotString | SkuTooLong | SkuBadChars => 5
    }

    function Message(): string {
      match this
      case NameRequired => "Name is required and must be a non-empty string"
      case NameTooLong => "Name must not exceed 100 characters"
      case CategoryRequired => "Category is required and must be a non-empty string"
      case PriceInvalid => "Price must be a valid positive number"
      case PriceTooHigh => "Price must not exceed 999,999"
      case QuantityInvalid => "Quantity must be a valid non-negative integer"
      case QuantityTooHigh => "Quantity must not exceed 999,999"
      case DescriptionNotString => "Description must be a string"
      case DescriptionTooLong => "Description must not exceed 500 characters"
      case SkuNotString => "SKU must be a string"
      case SkuTooLong => "SKU must not exceed 50 characters"
      case SkuBadChars => "SKU can only contain letters, numbers, underscores, and hyphens"
    }
  }

  /** No two messages have the same length, so the length alone tells which
      error a message belongs to. */
  function ErrorOfMessageLength(n: nat): Option<Error> {
    match n
    case 47 => Some(NameRequired)
    case 35 => Some(NameTooLong)
    case 51 => Some(CategoryRequired)
    case 37 => Some(PriceInvalid)
    case 29 => Some(PriceTooHigh)
    case 45 => Some(QuantityInvalid)
    case 32 => Some(QuantityTooHigh)
    case 28 => Some(DescriptionNotString)
    case 42 => Some(DescriptionTooLong)
    case 20 => Some(SkuNotString)
    case 33 => Some(SkuTooLong)
    case 63 => Some(SkuBadChars)
    case _ => None
  }

  lemma MessageLengthDecodes(e: Error)
    ensures ErrorOfMessageLength(|e.Message()|) == Some(e)
  {
  }

  /** The messages tell the errors apart, so a list of errors and the
      source's array of message strings determine each other. */
  lemma MessageInjective(e1: Error, e2: Error)
    ensures e1.Message() == e2.Message() <==> e1 == e2
  {
    MessageLengthDecodes(e1);
    MessageLengthDecodes(e2);
  }

  /** The result of `validateItemData`. */
  datatype Validation = Validation(isValid: bool, errors: seq<Error>)

  /** `isValidId`: a string that is not blank. */
  function IsValidId(id: Option<Value>): (b: bool)
    ensures b <==> id.Some? && id.value.Str? && !IsBlank(id.value.s)
  {
    match id
    case Some(Str(s)) => TrimEmptyIffBlank(s); Truthy(id) && |Trim(s)| > 0
    case _ => false
  }

  // ---------------------------------------------------------------------
  // What an acceptable field looks like, stated independently of the order
  // and wording of the checks.

  predicate IsNonBlankString(v: Option<Value>) {
    v.Some? && v.value.Str? && !IsBlank(v.value.s)
  }

  predicate GoodName(v: Option<Value>) {
    IsNonBlankString(v) && Utf16Length(v.value.s) <= MAX_NAME_LENGTH
  }

  predicate GoodCategory(v: Option<Value>) {
    IsNonBlankString(v)
  }

  predicate GoodPrice(v: Option<Value>) {
    var p := ParseFloatValue(v);
    p.Fin? && 0.0 <= p.r <= MAX_AMOUNT as real
  }

  predicate GoodQuantity(v: Option<Value>) {
    var q := ParseIntValue(v);
    q.Some? && 0 <= q.value <= MAX_AMOUNT
  }

  predicate GoodDescription(v: Option<Value>) {
    v.Some? && v.value.Str? && Utf16Length(v.value.s) <= MAX_DESCRIPTION_LENGTH
  }

  /** The characters of the pattern `[A-Za-z0-9_-]`. */
  predicate IsSkuChar(c: char) {
    ('A' <= c <= 'Z') || ('a' <= c <= 'z') || IsDigit(c) || c == '_' || c == '-'
  }

  /** `^[A-Za-z0-9_-]+$`. */
  predicate MatchesSkuPattern(s: string) {
    |s| > 0 && forall i :: 0 <= i < |s| ==> IsSkuChar(s[i])
  }

  /** An acceptable SKU: the pattern, and at most 50 characters. */
  predicate IsSkuText(s: string) {
    |s| <= MAX_SKU_LENGTH && MatchesSkuPattern(s)
  }

  predicate GoodSku(v: Option<Value>) {
    v.Some? && v.value.Str? && IsSkuText(v.value.s)
  }

  /** A required field is checked in full mode, and in partial mode only when
      the key is present. */
  predicate Checked(requireAll: bool, v: Option<Value>) {
    requireAll || v.Some?
  }

  /** Field `k` (in checking order name, category, price, quantity,
      description, sku) is acceptable in the given mode: not checked, or
      good. */
  predicate FieldOk(data: Payload, requireAll: bool, k: nat)
    requires k < 6
  {
    if k == 0 then Checked(requireAll, data.name) ==> GoodName(data.name)
    else if k == 1 then Checked(requireAll, data.category) ==> GoodCategory(data.category)
    else if k == 2 then Checked(requireAll, data.price) ==> GoodPrice(data.price)
    else if k == 3 then Checked(requireAll, data.quantity) ==> GoodQuantity(data.quantity)
    else if k == 4 then data.description.Some? ==> GoodDescription(data.description)
    else data.sku.Some? ==> GoodSku(data.sku)
  }

  /** The payloads `validateItemData(data, requireAll)` accepts. */
  predicate Acceptable(data: Payload, requireAll: bool) {
    && (Checked(requireAll, data.name) ==> GoodName(data.name))
    && (Checked(requireAll, data.category) ==> GoodCategory(data.category))
    && (Checked(requireAll, data.price) ==> GoodPrice(data.price))
    && (Checked(requireAll, data.quantity) ==> GoodQuantity(data.quantity))
    && (data.description.Some? ==> GoodDescription(data.description))
    && (data.sku.Some? ==> GoodSku(data.sku))
  }

  // ---------------------------------------------------------------------
  // The checks, field by field, as `validateItemData` performs them.

  function CheckName(v: Option<Value>): (e: seq<Error>)
    ensures Tagged(e, 0)
    ensures |e| == 0 <==> GoodName(v)
  {
    if !Truthy(v) || !v.value.Str? || |Trim(v.value.s)| == 0 then
      (if v.Some? && v.value.Str? then TrimEmptyIffBlank(v.value.s); [NameRequired] else [NameRequired])
    else
      TrimEmptyIffBlank(v.value.s);
      if Utf16Length(v.value.s) > MAX_NAME_LENGTH then [NameTooLong] else []
  }

  function CheckCategory(v: Option<Value>): (e: seq<Error>)
    ensures Tagged(e, 1)
    ensures |e| == 0 <==> GoodCategory(v)
  {
    if !Truthy(v) || !v.value.Str? || |Trim(v.value.s)| == 0 then
      (if v.Some? && v.value.Str? then TrimEmptyIffBlank(v.value.s); [CategoryRequired] else [CategoryRequired])
    else
      TrimEmptyIffBlank(v.value.s);
      []
  }

  function CheckPrice(v: Option<Value>): (e: seq<Error>)
    ensures Tagged(e, 2)
    ensures |e| == 0 <==> GoodPrice(v)
  {
    match ParseFloatValue(v)
    case NaN => [PriceInvalid]
    case Inf(negative) => if negative then [PriceInvalid] else [PriceTooHigh]
    case Fin(p) => if p < 0.0 then [PriceInvalid] else if p > MAX_AMOUNT as real then [PriceTooHigh] else []
  }

  function CheckQuantity(v: Option<Value>): (e: seq<Error>)
    ensures Tagged(e, 3)
    ensures |e| == 0 <==> GoodQuantity(v)
  {
    match ParseIntValue(v)
    case None => [QuantityInvalid]
    case Some(q) => if q < 0 then [QuantityInvalid] else if q > MAX_AMOUNT then [QuantityTooHigh] else []
  }

  function CheckDescription(v: Option<Value>): (e: seq<Error>)
    requires v.Some?
    ensures Tagged(e, 4)
    ensures |e| == 0 <==> GoodDescription(v)
  {
    if !v.value.Str? then [DescriptionNotString]
    else if Utf16Length(v.value.s) > MAX_DESCRIPTION_LENGTH then [DescriptionTooLong]
    else []
  }

  function CheckSku(v: Option<Value>): (e: seq<Error>)
    requires v.Some?
    ensures Tagged(e, 5)
    ensures |e| == 0 <==> GoodSku(v)
  {
    if !v.value.Str? then [SkuNotString]
    else if Utf16Length(v.value.s) > MAX_SKU_LENGTH then SkuTextIsBmp(v.value.s); [SkuTooLong]
    else if !MatchesSkuPattern(v.value.s) then [SkuBadChars]
    else SkuTextIsBmp(v.value.s); []
  }

  /** SKU characters are ASCII, so the JavaScript length of a SKU that
      matches the pattern is its number of characters. */
  lemma SkuTextIsBmp(s: string)
    ensures MatchesSkuPattern(s) ==> Utf16Length(s) == |s|
  {
    if MatchesSkuPattern(s) {
      Utf16LengthBmp(s);
    }
  }

  /** Some error in the list is about field `k`. */
  predicate HasFieldError(errors: seq<Error>, k: nat) {
    exists i :: 0 <= i < |errors| && errors[i].Field() == k
  }

  /** Errors are about strictly increasing fields. */
  predicate FieldOrdered(errors: seq<Error>) {
    forall i, j :: 0 <= i < j < |errors| ==> errors[i].Field() < errors[j].Field()
  }

  /** At most one error, and it is about field `k`. */
  predicate Tagged(e: seq<Error>, k: nat) {
    |e| <= 1 && forall i :: 0 <= i < |e| ==> e[i].Field() == k
  }

  predicate FieldsBelow(errors: seq<Error>, k: nat) {
    forall i :: 0 <= i < |errors| ==> errors[i].Field() < k
  }

  /** Appending the (at most one) error of field `k` to errors about earlier
      fields keeps the list ordered. */
  lemma AppendField(errors: seq<Error>, more: seq<Error>, k: nat)
    requires FieldOrdered(errors) && FieldsBelow(errors, k)
    requires Tagged(more, k)
    ensures FieldOrdered(errors + more) && FieldsBelow(errors + more, k + 1)
  {
  }

  /** At most one error per field, in field order, means at most six. */
  lemma {:induction false} OrderedBound(errors: seq<Error>, k: nat)
    requires FieldOrdered(errors) && FieldsBelow(errors, k)
    ensures |errors| <= k
    decreases k
  {
    if |errors| > 0 {
      var last := errors[|errors| - 1];
      var init := errors[..|errors| - 1];
      assert FieldsBelow(init, last.Field()) by {
        forall i | 0 <= i < |init|
          ensures init[i].Field() < last.Field()
        {
          assert init[i] == errors[i];
        }
      }
      assert FieldOrdered(init) by {
        forall i, j | 0 <= i < j < |init|
          ensures init[i].Field() < init[j].Field()
        {
          assert init[i] == errors[i] && init[j] == errors[j];
        }
      }
      OrderedBound(init, last.Field());
    }
  }

  /** The errors a field contributes in the given mode. */
  function WhenChecked(checked: bool, e: seq<Error>): seq<Error> {
    if checked then e else []
  }

  /** The errors field `k` contributes: the four required fields are
      checked when required (or present), description and SKU only when
      present. */
  function Segment(data: Payload, requireAll: bool, k: nat): (e: seq<Error>)
    requires k < 6
    ensures Tagged(e, k)
    ensures |e| == 0 <==> FieldOk(data, requireAll, k)
  {
    if k == 0 then WhenChecked(Checked(requireAll, data.name), CheckName(data.name))
    else if k == 1 then WhenChecked(Checked(requireAll, data.category), CheckCategory(data.category))
    else if k == 2 then WhenChecked(Checked(requireAll, data.price), CheckPrice(data.price))
    else if k == 3 then WhenChecked(Checked(requireAll, data.quantity), CheckQuantity(data.quantity))
    else if k == 4 then (if data.description.Some? then CheckDescription(data.description) else [])
    else if data.sku.Some? then CheckSku(data.sku) else []
  }

  /** The errors of each field, in checking order. */
  function FieldErrors(data: Payload, requireAll: bool): (fields: seq<seq<Error>>)
    ensures |fields| == 6
    ensures forall k :: 0 <= k < 6 ==> Tagged(fields[k], k) && fields[k] == Segment(data, requireAll, k)
  {
    seq(6, k requires 0 <= k < 6 => Segment(data, requireAll, k))
  }

  /** No field reports an error exactly when the payload is acceptable. */
  lemma FieldErrorsEmptyIffAcceptable(data: Payload, requireAll: bool)
    ensures (forall k :: 0 <= k < 6 ==> |FieldErrors(data, requireAll)[k]| == 0)
            <==> Acceptable(data, requireAll)
  {
    var f := FieldErrors(data, requireAll);
    var s0, s1, s2 := Segment(data, requireAll, 0), Segment(data, requireAll, 1), Segment(data, requireAll, 2);
    var s3, s4, s5 := Segment(data, requireAll, 3), Segment(data, requireAll, 4), Segment(data, requireAll, 5);
    assert (forall k :: 0 <= k < 6 ==> |f[k]| == 0)
      <==> |s0| == 0 && |s1| == 0 && |s2| == 0 && |s3| == 0 && |s4| == 0 && |s5| == 0;
  }

  /** The concatenation of the first `n` field segments. */
  function Concat(fields: seq<seq<Error>>, n: nat): (e: seq<Error>)
    requires n <= |fields|
    ensures |e| == 0 <==> forall k :: 0 <= k < n ==> |fields[k]| == 0
  {
    if n == 0 then [] else Concat(fields, n - 1) + fields[n - 1]
  }

  lemma {:induction false} ConcatOrdered(fields: seq<seq<Error>>, n: nat)
    requires n <= |fields|
    requires forall k :: 0 <= k < |fields| ==> Tagged(fields[k], k)
    ensures FieldOrdered(Concat(fields, n)) && FieldsBelow(Concat(fields, n), n)
  {
    if n > 0 {
      ConcatOrdered(fields, n - 1);
      AppendField(Concat(fields, n - 1), fields[n - 1], n - 1);
    }
  }

  /** `validateItemData(data, requireAll)`: all violations, one per field at
      most, in the order name, category, price, quantity, description, sku. */
  function ValidateItemData(data: Payload, requireAll: bool): (r: Validation)
    ensures r.isValid <==> |r.errors| == 0
    ensures FieldOrdered(r.errors) && |r.errors| <= 6
    ensures r.isValid <==> Acceptable(data, requireAll)
    ensures forall k :: 0 <= k < 6 ==> (HasFieldError(r.errors, k) <==> !FieldOk(data, requireAll, k))
    ensures forall i :: 0 <= i < |r.errors| ==> r.errors[i] in Segment(data, requireAll, r.errors[i].Field())
  {
    var fields := FieldErrors(data, requireAll);
    var errors := Concat(fields, 6);
    ConcatOrdered(fields, 6);
    ReportedFields(data, requireAll);
    OrderedBound(errors, 6);
    FieldErrorsEmptyIffAcceptable(data, requireAll);
    Validation(|errors| == 0, errors)
  }

  /** Field `k` has an error among the concatenated segments exactly when it
      is not acceptable, and every error comes from its own field's check. */
  lemma ReportedFields(data: Payload, requireAll: bool)
    ensures forall k :: 0 <= k < 6 ==>
      (HasFieldError(Concat(FieldErrors(data, requireAll), 6), k) <==> !FieldOk(data, requireAll, k))
    ensures forall i :: 0 <= i < |Concat(FieldErrors(data, requireAll), 6)| ==>
      Concat(FieldErrors(data, requireAll), 6)[i] in
        Segment(data, requireAll, Concat(FieldErrors(data, requireAll), 6)[i].Field())
  {
    var fields := FieldErrors(data, requireAll);
    ConcatOrigin(fields, 6);
    forall k | 0 <= k < 6
      ensures HasFieldError(Concat(fields, 6), k) <==> !FieldOk(data, requireAll, k)
    {
      ConcatPresence(fields, 6, k);
      assert fields[k] == Segment(data, requireAll, k);
    }
  }

  /** Every error of the concatenation comes from the segment of its own
      field. */
  lemma {:induction false} ConcatOrigin(fields: seq<seq<Error>>, n: nat)
    requires n <= |fields|
    requires forall k :: 0 <= k < |fields| ==> Tagged(fields[k], k)
    ensures forall i :: 0 <= i < |Concat(fields, n)| ==>
      Concat(fields, n)[i].Field() < n && Concat(fields, n)[i] in fields[Concat(fields, n)[i].Field()]
  {
    if n > 0 {
      ConcatOrigin(fields, n - 1);
      var a, f := Concat(fields, n - 1), fields[n - 1];
      var c := Concat(fields, n);
      assert c == a + f;
      forall i | 0 <= i < |c|
        ensures c[i].Field() < n && c[i] in fields[c[i].Field()]
      {
        if i < |a| {
          assert c[i] == a[i];
        } else {
          assert c[i] == f[i - |a|];
        }
      }
    }
  }

  /** Field `k` has an error in the concatenation exactly when its segment
      is non-empty. */
  lemma {:induction false} ConcatPresence(fields: seq<seq<Error>>, n: nat, k: nat)
    requires k < n <= |fields|
    requires forall j :: 0 <= j < |fields| ==> Tagged(fields[j], j)
    ensures HasFieldError(Concat(fields, n), k) <==> |fields[k]| > 0
  {
    var a, f := Concat(fields, n - 1), fields[n - 1];
    var c := Concat(fields, n);
    assert c == a + f;
    if k < n - 1 {
      ConcatPresence(fields, n - 1, k);
      if HasFieldError(c, k) {
        var i :| 0 <= i < |c| && c[i].Field() == k;
        assert i < |a|;
        assert a[i] == c[i];
        assert HasFieldError(a, k);
      }
      if |fields[k]| > 0 {
        var i :| 0 <= i < |a| && a[i].Field() == k;
        assert c[i] == a[i];
      }
    } else {
      ConcatOrigin(fields, n - 1);
      if HasFieldError(c, k) {
        var i :| 0 <= i < |c| && c[i].Field() == k;
        assert i >= |a|;
      }
      if |f| > 0 {
        assert c[|a|] == f[0];
      }
    }
  }

  /** An error is reported exactly when one of the concatenated fields
      reports it. */
  lemma {:induction false} InConcat(fields: seq<seq<Error>>, n: nat, x: Error)
    requires n <= |fields|
    ensures x in Concat(fields, n) <==> exists k :: 0 <= k < n && x in fields[k]
  {
    if n > 0 {
      InConcat(fields, n - 1, x);
    }
  }

  /** When only field `k` reports anything, the errors are that field's. */
  lemma {:induction false} ConcatOnly(fields: seq<seq<Error>>, n: nat, k: nat)
    requires k < n <= |fields|
    requires forall j :: 0 <= j < n && j != k ==> fields[j] == []
    ensures Concat(fields, n) == fields[k]
  {
    if n - 1 > k {
      ConcatOnly(fields, n - 1, k);
    } else {
      assert Concat(fields, k) == [];
    }
  }

  /** In full mode, every missing required key is reported, with the message
      its check gives an absent value. */
  lemma FullModeReportsMissingFields(data: Payload)
    ensures data.name.None? ==> NameRequired in ValidateItemData(data, true).errors
    ensures data.category.None? ==> CategoryRequired in ValidateItemData(data, true).errors
    ensures data.price.None? ==> PriceInvalid in ValidateItemData(data, true).errors
    ensures data.quantity.None? ==> QuantityInvalid in ValidateItemData(data, true).errors
  {
    if data.name.None? {
      SegmentReported(data, 0, NameRequired);
    }
    if data.category.None? {
      SegmentReported(data, 1, CategoryRequired);
    }
    if data.price.None? {
      SegmentReported(data, 2, PriceInvalid);
    }
    if data.quantity.None? {
      SegmentReported(data, 3, QuantityInvalid);
    }
  }

  /** An error a field reports in full mode is among the reported errors. */
  lemma SegmentReported(data: Payload, k: nat, x: Error)
    requires k < 6 && x in Segment(data, true, k)
    ensures x in ValidateItemData(data, true).errors
  {
    var fields := FieldErrors(data, true);
    InConcat(fields, 6, x);
    assert x in fields[k];
  }

  /** In partial mode an empty payload is valid. */
  lemma PartialModeAcceptsEmpty()
    ensures ValidateItemData(EmptyPayload, false) == Validation(true, [])
  {
    assert Acceptable(EmptyPayload, false);
  }

  /** A present key is checked in partial mode exactly as in full mode, so
      when every required key is present the two modes agree. */
  lemma PresentFieldsCheckedAlike(data: Payload)
    requires data.name.Some? && data.category.Some? && data.price.Some? && data.quantity.Some?
    ensures ValidateItemData(data, false) == ValidateItemData(data, true)
  {
    assert FieldErrors(data, false) == FieldErrors(data, true);
  }

  lemma {:induction false} ConcatSubseq(a: seq<seq<Error>>, b: seq<seq<Error>>, n: nat)
    requires n <= |a| == |b|
    requires forall k :: 0 <= k < n ==> SubseqOf(a[k], b[k])
    ensures SubseqOf(Concat(a, n), Concat(b, n))
  {
    if n > 0 {
      ConcatSubseq(a, b, n - 1);
      SubseqOfConcat(Concat(a, n - 1), Concat(b, n - 1), a[n - 1], b[n - 1]);
    }
  }

  /** Partial mode only skips checks: its errors are a subsequence of the
      full-mode errors for the same payload. */
  lemma PartialErrorsSubseqOfFull(data: Payload)
    ensures SubseqOf(ValidateItemData(data, false).errors, ValidateItemData(data, true).errors)
  {
    var p := FieldErrors(data, false);
    var f := FieldErrors(data, true);
    forall k | 0 <= k < 6
      ensures SubseqOf(p[k], f[k])
    {
      if p[k] == f[k] {
        SubseqOfRefl(p[k]);
      } else {
        assert p[k] == [];
      }
    }
    ConcatSubseq(p, f, 6);
  }

  /** In partial mode a payload carrying at most the key of field `k` (and no
      description or SKU unless `k` is that field) is judged by that field's
      check alone. */
  lemma OnlyFieldDecides(data: Payload, k: nat)
    requires k < 6
    requires k != 0 ==> data.name.None?
    requires k != 1 ==> data.category.None?
    requires k != 2 ==> data.price.None?
    requires k != 3 ==> data.quantity.None?
    requires k != 4 ==> data.description.None?
    requires k != 5 ==> data.sku.None?
    ensures ValidateItemData(data, false).errors == FieldErrors(data, false)[k]
  {
    ConcatOnly(FieldErrors(data, false), 6, k);
  }

  /** Partial mode collects every violation rather than stopping at the
      first: a `null` name and a `null` price are both reported, in field
      order. */
  lemma NullNameAndPriceBothReported()
    ensures ValidateItemData(EmptyPayload.(name := Some(Null), price := Some(Null)), false).errors
            == [NameRequired, PriceInvalid]
  {
    var d := EmptyPayload.(name := Some(Null), price := Some(Null));
    var f := FieldErrors(d, false);
    NullNameAndPriceSegments(f);
    assert Concat(f, 1) == [NameRequired] by {
      assert Concat(f, 1) == Concat(f, 0) + f[0];
    }
    assert Concat(f, 3) == [NameRequired, PriceInvalid] by {
      assert Concat(f, 2) == Concat(f, 1) + f[1];
      assert Concat(f, 3) == Concat(f, 2) + f[2];
    }
    ConcatEmptyTail(f, 3, 6);
  }

  /** Segments that report nothing add nothing to the concatenation. */
  lemma {:induction false} ConcatEmptyTail(fields: seq<seq<Error>>, m: nat, n: nat)
    requires m <= n <= |fields|
    requires forall k :: m <= k < n ==> fields[k] == []
    ensures Concat(fields, n) == Concat(fields, m)
    decreases n
  {
    if n > m {
      ConcatEmptyTail(fields, m, n - 1);
      assert Concat(fields, n) == Concat(fields, n - 1) + [];
    }
  }

  lemma NullNameAndPriceSegments(f: seq<seq<Error>>)
    requires f == FieldErrors(EmptyPayload.(name := Some(Null), price := Some(Null)), false)
    ensures f[0] == [NameRequired] && f[1] == [] && f[2] == [PriceInvalid]
    ensures f[3] == [] && f[4] == [] && f[5] == []
  {
    var d := EmptyPayload.(name := Some(Null), price := Some(Null));
    assert f[0] == Segment(d, false, 0);
    assert f[2] == Segment(d, false, 2);
  }

  /** Name boundaries: blank names and names longer than 100 code units are
      rejected with their messages; a non-blank name of at most 100 code
      units is accepted. */
  lemma NameBoundaries(s: string)
    ensures IsBlank(s) ==> ValidateItemData(EmptyPayload.(name := Some(Str(s))), false).errors == [NameRequired]
    ensures !IsBlank(s) && Utf16Length(s) > 100 ==> ValidateItemData(EmptyPayload.(name := Some(Str(s))), false).errors == [NameTooLong]
    ensures !IsBlank(s) && Utf16Length(s) <= 100 ==> ValidateItemData(EmptyPayload.(name := Some(Str(s))), false).errors == []
  {
    var d := EmptyPayload.(name := Some(Str(s)));
    OnlyFieldDecides(d, 0);
    assert FieldErrors(d, false)[0] == CheckName(Some(Str(s)));
    TrimEmptyIffBlank(s);
    assert Truthy(Some(Str(s))) <==> s != "";
  }

  /** A JSON number as price is accepted exactly on [0, 999999]; negative
      prices and prices above 999999 get their own messages. */
  lemma PriceBoundaries(x: real)
    ensures ValidateItemData(EmptyPayload.(price := Some(Number(x))), false).errors
            == if x < 0.0 then [PriceInvalid] else if x > 999999.0 then [PriceTooHigh] else []
  {
    OnlyFieldDecides(EmptyPayload.(price := Some(Number(x))), 2);
  }

  /** An integral JSON number as quantity is accepted exactly on
      [0, 999999]. */
  lemma QuantityBoundaries(n: int)
    ensures ValidateItemData(EmptyPayload.(quantity := Some(Number(n as real))), false).errors
            == if n < 0 then [QuantityInvalid] else if n > 999999 then [QuantityTooHigh] else []
  {
    OnlyFieldDecides(EmptyPayload.(quantity := Some(Number(n as real))), 3);
    assert Truncate(n as real) == n;
  }

  /** A price or quantity string that does not parse (NaN) is rejected. */
  lemma UnparsableAmountsRejected(junk: string)
    ensures ParseFloat(junk).NaN? ==> ValidateItemData(EmptyPayload.(price := Some(Str(junk))), false).errors == [PriceInvalid]
    ensures ParseInt(junk).None? ==> ValidateItemData(EmptyPayload.(quantity := Some(Str(junk))), false).errors == [QuantityInvalid]
  {
    OnlyFieldDecides(EmptyPayload.(price := Some(Str(junk))), 2);
    OnlyFieldDecides(EmptyPayload.(quantity := Some(Str(junk))), 3);
  }

  /** A SKU is accepted exactly when it is a string of 1 to 50 characters
      drawn from `[A-Za-z0-9_-]`. */
  lemma SkuAcceptedIff(v: Value)
    ensures ValidateItemData(EmptyPayload.(sku := Some(v)), false).isValid
            <==> v.Str? && 1 <= |v.s| <= 50 && forall i :: 0 <= i < |v.s| ==> IsSkuChar(v.s[i])
  {
  }

  /** A payload with only a SKU is judged by the SKU check alone. */
  lemma OnlySkuDecides(v: Value)
    ensures ValidateItemData(EmptyPayload.(sku := Some(v)), false).errors == CheckSku(Some(v))
  {
    var d := EmptyPayload.(sku := Some(v));
    OnlyFieldDecides(d, 5);
    assert FieldErrors(d, false)[5] == Segment(d, false, 5);
  }

  /** An empty SKU fails the pattern check (it needs at least one
      character). */
  lemma EmptySkuRejected()
    ensures ValidateItemData(EmptyPayload.(sku := Some(Str(""))), false).errors == [SkuBadChars]
  {
    OnlySkuDecides(Str(""));
    assert Utf16Length("") == 0;
  }

  /** A SKU with a space fails the pattern check. */
  lemma SpacedSkuRejected()
    ensures ValidateItemData(EmptyPayload.(sku := Some(Str("AB 12"))), false).errors == [SkuBadChars]
  {
    OnlySkuDecides(Str("AB 12"));
    SpacedSkuCheck("AB 12");
  }

  lemma SpacedSkuCheck(s: string)
    requires s == "AB 12"
    ensures CheckSku(Some(Str(s))) == [SkuBadChars]
  {
    assert Utf16Length(s) <= 2 * |s|;
    assert s[2] == ' ';
  }

  /** The outcome of `validateSearchQuery`. */
  datatype SearchResult = SearchOk(cleaned: string) | SearchError(error: string)

  /** `validateSearchQuery(query)`; `sanitize` stands for `sanitizeString`,
      whose pattern rewriting is not modelled. */
  function ValidateSearchQuery(query: Option<Value>, sanitize: string -> string): (r: SearchResult)
    ensures !Truthy(query) ==> r == SearchOk("")
    ensures Truthy(query) && !query.value.Str? ==> r == SearchError("Search query must be a string")
    ensures r.SearchOk? <==> !Truthy(query) || (query.value.Str? && Utf16Length(query.value.s) <= MAX_QUERY_LENGTH)
    ensures Truthy(query) && r.SearchOk? ==> r.cleaned == sanitize(query.value.s)
  {
    if !Truthy(query) then SearchOk("")
    else if !query.value.Str? then SearchError("Search query must be a string")
    else if Utf16Length(query.value.s) > MAX_QUERY_LENGTH then SearchError("Search query too long")
    else SearchOk(sanitize(query.value.s))
  }

  /** For a query within the Basic Multilingual Plane the outcome depends
      only on its character count: empty is valid with nothing to clean, up
      to 100 characters is valid and sanitized, more is too long. */
  lemma SearchQueryBoundaries(s: string, sanitize: string -> string)
    requires forall i :: 0 <= i < |s| ==> s[i] as int < 0x1_0000
    ensures ValidateSearchQuery(Some(Str(s)), sanitize)
            == if |s| == 0 then SearchOk("")
               else if |s| > 100 then SearchError("Search query too long")
               else SearchOk(sanitize(s))
  {
    Utf16LengthBmp(s);
  }
}

=== FILE: wrappers.dfy ===
/** The Option type used throughout the model: `None` stands for JavaScript's
    `undefined` / `null` results (a missing key, a failed lookup). */
module Wrappers {

  datatype Option<+T> = None | Some(value: T)
}
